=== FILE: README.md ===
# Recipe search front-end: a verified Dafny model

This project models the logic of a small React recipe application. A cook
types the ingredients they have. The app finds mock recipes whose
matched-ingredient labels contain one of the typed terms and shows them as
cards. A recipe page shows the recipe's ingredient columns, a simulated
video player and a star-rating widget.

Everything is modelled as immutable datatypes and pure functions. The UI
components become step functions over state records, and every timer
firing and every completion of an awaited call is an explicit event.

| file | module | models |
|---|---|---|
| `seqs.dfy` | `Seqs` | `Array.prototype.filter` and the order-preserving subsequence relation |
| `options.dfy` | `Options` | optional values (`undefined`, `null`, absent fields) |
| `ascii.dfy` | `Ascii` | `toLowerCase`, `trim`, `split(',')`, `includes` and decimal rendering, over ASCII |
| `recipe_card.dfy` | `RecipeCard` | the `Recipe` record, card badges with "+K more" overflow, and the card link |
| `ingredients_list.dfy` | `IngredientsList` | the `Ingredient` record and the have/need partition with its two empty-column notices |
| `recipe_service.dfy` | `RecipeService` | the mock tables, `searchRecipesByIngredients` and `getRecipeById` |
| `frame_service.dfy` | `FrameService` | `generateRecipeImageFrames`: search term, hit collection, padding, fallback |
| `playback.dfy` | `Playback` | the simulated video player |
| `recipe_rating.dfy` | `RecipeRating` | star fill, hover, click and the ratings caption |
| `search_bar.dfy` | `SearchBar` | the submit guard |
| `home_page.dfy` | `HomePage` | the search lifecycle and the choice of view |
| `recipe_detail_page.dfy` | `RecipeDetailPage` | the detail fetch lifecycle and the choice of view |

Strings are ASCII.
- `trim` removes space, tab, line feed, vertical tab, form feed and carriage return.
- `toLowerCase` maps `A`–`Z` to `a`–`z`.
- `\w` is `[A-Za-z0-9_]`.

Video progress is stored as whole half-percent steps from 0 to 200. A
progress of 100 % is therefore 200, and every value the player reaches is
a multiple of 0.5 %.

Some consequences of the code that are easy to miss:
- The error fallback of the frame builder is the same five
  `fallback-<i>` URLs whatever the title.
- No code maps playback progress to a frame: the player shows one image
  seeded by the recipe id, and nothing connects the frame builder to the
  player.
- On the detail page, an empty id is falsy, so the lookup never runs and
  the loader stays (`RecipeDetailPage.MissingIdLoadsForever`).
- On the detail page, an unknown id after a known one leaves the earlier
  recipe on screen (`RecipeDetailPage.UnknownIdKeepsPrevious`).
- On the home page, a search that throws keeps the earlier results under
  the new query's heading (`HomePage.FailedSearchKeepsResults`).

## Model

| member | source | states |
|---|---|---|
| Seqs.Filter | src/services/recipeService.ts:115-120 | the filtered list is no longer than the input and holds exactly the input elements that satisfy the predicate |
| Seqs.FilterPositions | src/services/recipeService.ts:115-120 | the filtered list sits in the input at strictly increasing positions, and position i is used iff element i satisfies the predicate |
| Seqs.FilterPartition | src/components/IngredientsList.tsx:19-20 | filtering by a predicate and by its negation splits the input: the multisets add up to the input's and so do the lengths |
| Ascii.ToLower | src/services/recipeService.ts:113 | lower-casing keeps the length, turns each of `A`–`Z` into its lower-case letter and leaves every other character unchanged |
| Ascii.ToLowerIdempotent | src/services/recipeService.ts:113 | lower-casing twice is lower-casing once |
| Ascii.ToLowerAppend | src/services/recipeService.ts:113 | lower-casing a concatenation lower-cases each part |
| Ascii.Trim | src/components/SearchBar.tsx:20-21 | the result has no blank at either end, and is empty iff the input is all blanks |
| Ascii.TrimIsSlice | src/components/SearchBar.tsx:21 | the result is a slice of the input with only blanks before and after it |
| Ascii.TrimIdempotent | src/components/SearchBar.tsx:21 | trimming twice is trimming once |
| Ascii.TrimPadding | src/services/recipeService.ts:113 | blanks added around a string do not change its trimmed form |
| Ascii.ContainsAt | src/services/recipeService.ts:117 | `includes` holds iff the term occurs at some position of the string |
| Ascii.ContainsEmpty | src/services/recipeService.ts:117 | every string includes the empty string |
| Ascii.Split | src/services/recipeService.ts:113 | `split(',')` yields at least one piece, and no piece holds a comma |
| Ascii.SplitCount | src/services/recipeService.ts:113 | `split(',')` yields one more piece than there are commas |
| Ascii.JoinSplit | src/services/recipeService.ts:113 | joining the pieces with commas gives back the query |
| Ascii.SplitJoin | src/services/recipeService.ts:113 | splitting comma-free pieces joined by commas gives back the pieces |
| Ascii.SplitToLower | src/services/recipeService.ts:113 | lower-casing before splitting lower-cases each piece and keeps the pieces |
| Ascii.NatToStringRoundTrip | src/components/RecipeCard.tsx:72 | the decimal text of a number reads back as that number |
| RecipeCard.BadgeSection | src/components/RecipeCard.tsx:58-77 | no section for an empty list; otherwise the first min(limit, n) labels in order, and a "+K more" count iff n exceeds the limit, with badges plus K equal to n |
| RecipeCard.MatchedSection | src/components/RecipeCard.tsx:58-77 | the matched section is present iff the list is non-empty, shows the first min(3, n) labels, and shows "+(n−3) more" iff n > 3 |
| RecipeCard.MissingSection | src/components/RecipeCard.tsx:79-95 | the missing section is present iff the list is non-empty, shows the first min(2, m) labels, and shows "+(m−2) more" iff m > 2 |
| RecipeCard.LinkPath | src/components/RecipeCard.tsx:24 | the link is `/recipe/` followed by the id |
| RecipeCard.LinkPathInjective | src/components/RecipeCard.tsx:24 | different recipes link to different paths |
| RecipeCard.RenderCard | src/components/RecipeCard.tsx:23-97 | the card links to the recipe's page, shows its title, image, minutes, servings and likes, and shows the matched section with limit 3 and the missing section with limit 2 (see MatchedSection, MissingSection) |
| RecipeCard.MoreLabel | src/components/RecipeCard.tsx:72 | the overflow badge reads `+`, a number, then ` more` |
| RecipeCard.MoreLabelStatesCount | src/components/RecipeCard.tsx:72 | the digits after `+` read back as the number of labels cut |
| RecipeCard.BadgeTexts | src/components/RecipeCard.tsx:61-74 | a row shows its kept labels in order, followed by the overflow badge exactly when labels were cut |
| RecipeCard.MatchedOverflowText | src/components/RecipeCard.tsx:62-73 | more than three matched labels show as the first three, then `+K more` with K the number left out |
| IngredientsList.Available | src/components/IngredientsList.tsx:19 | the available column holds exactly the ingredients marked available |
| IngredientsList.Missing | src/components/IngredientsList.tsx:20 | the missing column holds exactly the ingredients not marked available |
| IngredientsList.Render | src/components/IngredientsList.tsx:26-77 | "No matched ingredients found." shows iff no ingredient is available, and "You have all the ingredients!" shows iff none is missing; otherwise the columns list the items |
| IngredientsList.Partition | src/components/IngredientsList.tsx:19-20 | every ingredient lands in exactly one column, the lengths add up to the input length, and both columns keep input order |
| IngredientsList.PartitionPositions | src/components/IngredientsList.tsx:19-20 | position i is in the available column iff ingredient i is available, and in the missing column iff it is not |
| RecipeService.SearchTerms | src/services/recipeService.ts:113 | one term per comma-separated piece of the query, each with no blank at either end |
| RecipeService.SearchTermsAsWritten | src/services/recipeService.ts:113 | lower-casing the whole query, splitting on commas and trimming each piece gives exactly these terms |
| RecipeService.SearchIn | src/services/recipeService.ts:115-120 | the result is no longer than the table and holds exactly the table recipes that match the terms (SearchExact restates this with the matching rule written directly) |
| RecipeService.SearchRecipesByIngredients | src/services/recipeService.ts:105-121 | the result holds exactly the mock recipes that match the query's terms |
| RecipeService.RecipeMatchesIff | src/services/recipeService.ts:115-119 | the nested `some` holds iff some lower-cased matched label includes some term |
| RecipeService.SearchExact | src/services/recipeService.ts:113-120 | a table recipe is returned iff one of its lower-cased matched labels includes one of the terms (soundness and completeness) |
| RecipeService.SearchIsSubsequence | src/services/recipeService.ts:115-120 | the result sits in the table at strictly increasing positions, and table entry i is used iff it matches |
| RecipeService.EmptyTermMatchesAll | src/services/recipeService.ts:113-117 | when the query yields an empty term, every recipe with a non-empty matched list is returned and no other |
| RecipeService.SearchIgnoresCase | src/services/recipeService.ts:113 | the terms of a query and of its lower-cased form are the same |
| RecipeService.SearchIgnoresPadding | src/services/recipeService.ts:113 | blanks around a comma-separated piece do not change its term |
| RecipeService.EmptyQueryTerm | src/services/recipeService.ts:113 | the empty query yields a single empty term |
| RecipeService.TrailingCommaTerm | src/services/recipeService.ts:113 | "chicken," yields the terms "chicken" and "" |
| RecipeService.ChickenSearch | src/services/recipeService.ts:6-67 | on the mock table, searching "chicken" returns recipe '1' alone |
| RecipeService.ChickenExcludesBerryBowl | src/services/recipeService.ts:47-56 | recipe '5' is not among the results for "chicken" |
| RecipeService.FindById | src/services/recipeService.ts:135 | `find` returns nothing iff no entry has the id; otherwise an entry with that id and no earlier entry with it |
| RecipeService.GetRecipeById | src/services/recipeService.ts:124-140 | a returned recipe is a mock recipe with the requested id; an id without an ingredient list gets [], and one without nutrition gets {0, 0, 0, 0} |
| RecipeService.UnknownId | src/services/recipeService.ts:135-139 | an unknown id gives no recipe, no ingredients and nutrition {0, 0, 0, 0}, and no error |
| RecipeService.KnownIdRecipe | src/services/recipeService.ts:135 | a known id gives the table's first entry with that id, whose id equals the query |
| RecipeService.KnownIdNutrition | src/services/recipeService.ts:95-102 | a known id gives its own nutrition facts, which are not all zero |
| RecipeService.KnownIdIngredients | src/services/recipeService.ts:70-92 | a known id has a non-empty ingredient list iff it is '1' or '2' |
| FrameService.SearchTerm | src/services/aiStudioService.ts:45 | the search term is no longer than the title and holds only lower-case letters, digits, `_` and blanks |
| FrameService.SearchTermIdempotent | src/services/aiStudioService.ts:45 | normalising a search term again changes nothing |
| FrameService.SearchTermOfPlainTitle | src/services/aiStudioService.ts:45 | a title of word characters and blanks is only lower-cased |
| FrameService.SearchTermPositions | src/services/aiStudioService.ts:45 | exactly the title characters outside `[\w\s]` are deleted; the kept ones appear lower-cased and in title order |
| FrameService.HitsOf | src/services/aiStudioService.ts:50-65 | hits are read only from an ok response whose body is a non-null JSON value, and they are that value's `hits` field |
| FrameService.Collect | src/services/aiStudioService.ts:69-73 | no more images than hits, and every image is non-empty (CollectPositions gives the order) |
| FrameService.Considered | src/services/aiStudioService.ts:65-67 | a prefix of the hits of length min(5, n), and none when `hits` is missing |
| FrameService.CollectPositions | src/services/aiStudioService.ts:69-73 | a hit contributes iff it has a non-empty recipe image, and contributed images keep hit order |
| FrameService.Pad | src/services/aiStudioService.ts:77-82 | the collected images come first, followed by placeholders `<term>-frame-0`, `-1`, … up to five entries |
| FrameService.Placeholder | src/services/aiStudioService.ts:80 | the URL starts with the picsum seed path, carries the search term right after it, and ends in `/1280/720` |
| FrameService.PlaceholderStatesIndex | src/services/aiStudioService.ts:79-80 | after the term come `-frame-` and the decimal digits of the slot number, which read back as i |
| FrameService.FallbackFrames | src/services/aiStudioService.ts:88-90 | exactly five fallback URLs (FailureGivesFallback states each entry) |
| FrameService.FallbackFrame | src/services/aiStudioService.ts:89 | the URL starts with the picsum seed path followed by `fallback-`, and ends in `/1280/720` |
| FrameService.FallbackFrameStatesIndex | src/services/aiStudioService.ts:88-89 | between that prefix and suffix stand the decimal digits of the slot number i |
| FrameService.PlaceholdersDistinct | src/services/aiStudioService.ts:80 | different padding slots get different URLs |
| FrameService.GenerateRecipeImageFrames | src/services/aiStudioService.ts:38-92 | the result always has exactly five entries |
| FrameService.SuccessLayout | src/services/aiStudioService.ts:62-84 | on success the images of the first five hits come first in hit order, each from a hit that has one, followed by placeholders numbered from 0 |
| FrameService.NoHitsAllPlaceholders | src/services/aiStudioService.ts:65-82 | no hits, or no `hits` field, gives placeholders 0 to 4 |
| FrameService.FailureGivesFallback | src/services/aiStudioService.ts:54-56 | a network error, a non-ok status, a non-JSON body or a `null` body gives the five `fallback-<i>` URLs, whatever the title |
| FrameService.NullHitFallsBack | src/services/aiStudioService.ts:69-71 | a null entry among the first five hits throws and gives the fallback |
| Playback.Step | src/components/RecipeVideo.tsx:20-55 | only the mute toggle changes muting, only a tick changes progress, only the loading timer ends loading, and the play toggle flips playing only after loading |
| Playback.StepValid | src/components/RecipeVideo.tsx:32-42 | every event keeps progress within 0..100 %, and nothing plays or advances while loading |
| Playback.ReachableValid | src/components/RecipeVideo.tsx:11-14 | every state reachable from mount keeps that invariant |
| Playback.LoadedStaysLoaded | src/components/RecipeVideo.tsx:20-26 | once loading has ended it never starts again |
| Playback.NoPlayWhileLoading | src/components/RecipeVideo.tsx:47-51 | until the loading timer fires, nothing starts playback or moves progress |
| Playback.TickEffect | src/components/RecipeVideo.tsx:32-39 | a tick below 100 % adds half a percent and keeps playing; a tick while paused or loading does nothing |
| Playback.PlayToEnd | src/components/RecipeVideo.tsx:34-40 | playing from h reaches exactly 100 % after 200 − h ticks, and the next tick rewinds to 0 and pauses |
| Playback.MuteTwice | src/components/RecipeVideo.tsx:53-55 | two mute toggles restore the state |
| Playback.PauseKeepsPosition | src/components/RecipeVideo.tsx:47-51 | play then pause restores the state, progress included |
| Playback.VideoUrl | src/components/RecipeVideo.tsx:17 | the URL is the picsum seed path, then the recipe id, then `/1280/720` |
| Playback.VideoUrlInjective | src/components/RecipeVideo.tsx:17 | different recipe ids give different image URLs |
| RecipeRating.Mount | src/components/RecipeRating.tsx:11-18 | the widget starts unrated, with no hover, at the given rating or 0 |
| RecipeRating.Handle | src/components/RecipeRating.tsx:20-44 | a click sets the rating to the star, with or without a listener, and reports it iff a listener is present; entering a star hovers it, leaving clears the hover, and neither touches the rating; the rated flag becomes true on a click and never false |
| RecipeRating.Stars | src/components/RecipeRating.tsx:37-49 | five stars, star i filled per `Filled`: against the hovered star while one is hovered, else against the rating (StarsArePrefix gives the filled prefix) |
| RecipeRating.FilledCount | src/components/RecipeRating.tsx:37-49 | the number of filled stars is at most five |
| RecipeRating.StarsArePrefix | src/components/RecipeRating.tsx:37-49 | exactly the first `FilledCount` stars are filled: the hovered star's number, or the whole part of the rating clamped to 0..5 |
| RecipeRating.HoverFills | src/components/RecipeRating.tsx:42-43 | while star h is hovered exactly h stars are filled; leaving fills by the rating again |
| RecipeRating.ClickThenLeave | src/components/RecipeRating.tsx:20-24 | after clicking star s and leaving, s stars are filled and the rating is recorded |
| RecipeRating.RatedStaysRated | src/components/RecipeRating.tsx:18-22 | once rated, no further event clears the rated flag |
| RecipeRating.RatingsNoun | src/components/RecipeRating.tsx:59 | the caption says "rating" iff there is exactly one rating |
| RecipeRating.DetailPageRating | src/pages/RecipeDetail.tsx:128 | the detail page's 4.5 from 128 ratings fills stars 1 to 4 and uses the plural |
| SearchBar.Submit | src/components/SearchBar.tsx:18-23 | nothing is passed iff the query is all blanks; otherwise the passed string is non-empty and has no blank at either end |
| SearchBar.SubmitIsSlice | src/components/SearchBar.tsx:21 | the passed string is the query with only blanks removed from its ends |
| SearchBar.ResubmitUnchanged | src/components/SearchBar.tsx:21 | a passed query, submitted again, is passed unchanged |
| SearchBar.PaddingIgnored | src/components/SearchBar.tsx:20-21 | blanks around the query do not change what is passed |
| HomePage.Step | src/pages/Home.tsx:15-28 | starting sets searching and searched and records the query; a returned call replaces the results, a thrown one keeps them, and either way searching ends |
| HomePage.Submission | src/pages/Home.tsx:15-28 | a whole submission ends not searching, searched, with the query recorded and the returned results stored |
| HomePage.HandleSearch | src/pages/Home.tsx:15-28 | after `handleSearch` runs to completion the page is not searching, has searched, records the query and shows what the service returned for it |
| HomePage.ReachableValid | src/pages/Home.tsx:10-13 | before the first submission there are no results, no search running and no query |
| HomePage.SearchedStaysSearched | src/pages/Home.tsx:12-18 | once a search was started the page never returns to the unsearched state |
| HomePage.Render | src/pages/Home.tsx:49-99 | the loader shows iff searching; otherwise the heading shows iff searched, the count line iff searched with results, cards iff there are results, the prompt iff unsearched with no results |
| HomePage.HeadingNamesQuery | src/pages/Home.tsx:56-61 | the heading quotes the query and says whether anything was found |
| HomePage.HeadingText | src/pages/Home.tsx:59-61 | the heading is exactly "Recipes with " when something was found, or "No recipes found with " otherwise, followed by the quoted query |
| HomePage.CountText | src/pages/Home.tsx:65 | the count line starts with "Found " (CountTextStatesCount gives the digits) |
| HomePage.RecipeNoun | src/pages/Home.tsx:65 | the count line says "recipe" iff there is exactly one result, and "recipes" otherwise |
| HomePage.CountTextStatesCount | src/pages/Home.tsx:63-65 | the count line reads "Found ", the digits of the number of results, a blank, "recipe" or "recipes" as RecipeNoun gives it, then " that match your ingredients" |
| HomePage.SubmissionShowsResults | src/pages/Home.tsx:56-76 | after a submission the heading quotes the query, and cards or "No matching recipes" show depending on whether anything was found |
| HomePage.ChickenPage | src/pages/Home.tsx:15-76 | submitting "chicken" on a fresh page shows the single card of recipe '1' with a singular count |
| HomePage.FailedSearchKeepsResults | src/pages/Home.tsx:23-27 | a search that throws keeps the earlier results and records the new query |
| RecipeDetailPage.Settle | src/pages/RecipeDetail.tsx:25-35 | recipe, ingredients and nutrition are replaced only when a recipe came back, and loading ends either way |
| RecipeDetailPage.Begin | src/pages/RecipeDetail.tsx:21-23 | a missing or empty id returns before anything changes; otherwise only the loading flag is set |
| RecipeDetailPage.Fetch | src/pages/RecipeDetail.tsx:19-39 | without a truthy id (missing or empty) nothing changes; with one, loading ends; a lookup that finds a recipe replaces recipe, ingredients and nutrition with its answer, and one that finds nothing changes only the loading flag |
| RecipeDetailPage.FetchCoherent | src/pages/RecipeDetail.tsx:25-30 | the ingredients and nutrition kept are those of the recipe kept, and empty and zero while there is none |
| RecipeDetailPage.ThrowKeepsState | src/pages/RecipeDetail.tsx:31-35 | a lookup that throws changes nothing but the loading flag |
| RecipeDetailPage.Render | src/pages/RecipeDetail.tsx:41-128 | the loader shows iff loading, "Recipe not found" iff not loading and no recipe, and otherwise the recipe's title, minutes, servings, picture, ingredient columns and nutrition, with the rating widget mounted at 4.5 from 128 ratings |
| RecipeDetailPage.ShownRatingWidget | src/pages/RecipeDetail.tsx:128 | whenever a recipe is shown, its rating widget fills four stars and its caption says "ratings" |
| RecipeDetailPage.MissingIdLoadsForever | src/pages/RecipeDetail.tsx:14-21 | a route with no id or the empty id never leaves the loader |
| RecipeDetailPage.KnownIdShown | src/pages/RecipeDetail.tsx:75-128 | a known id shows that recipe's title, picture and ingredient columns |
| RecipeDetailPage.UnknownIdNotFound | src/pages/RecipeDetail.tsx:21-73 | an unknown non-empty id on a fresh page shows "Recipe not found"; the empty id keeps the loader |
| RecipeDetailPage.UnknownIdKeepsPrevious | src/pages/RecipeDetail.tsx:21-34 | an unknown non-empty id leaves the earlier recipe in place and ends loading; the empty id changes nothing |

## Left out

- The HTTP request and JSON parsing in `generateRecipeImageFrames` are not modelled. Network I/O cannot be expressed here. The request's outcome is an input, `FrameService.Fetched`.
- `FrameService.Hit`: a `hits` value that is not an array is not modelled. Neither is a `recipe` or `image` of an unexpected JSON type. Both fall outside what a typed model of the response can express.
- `console.log` and `console.error` calls are left out. They have no effect on state or output.
- The simulated `setTimeout` delays, the 100 ms interval, timer cancellation on unmount, and React effect ordering are not modelled as timing. Each firing or completion is an explicit event.
- Concurrency is not modelled. Overlapping searches are only events given in some order. `HomePage.OverlappingSearches` shows one such order, in which the first results appear under the second query's heading. The model does not decide which orders the browser can produce.
- Both `generateRecipeVideo` functions are left out (src/services/recipeService.ts:143-152, src/services/aiStudioService.ts:14-31). They are fixed URL builders behind delays, and one depends on `encodeURIComponent`, which is foreign code.
- Floating-point display formatting is left out: the playback time label, `rating.toFixed(1)` and the progress bar's width string. `Playback.ProgressPercent` gives the exact value behind the bar.
- `RecipeRating.RatingState`: `rating` is a mathematical real, not an IEEE double. The rating values the code uses (4.5, 0, whole stars) are exact in both.
- src/components/RecipeChart.tsx is not part of this model. It copies fields into a charting library with floating-point labels.
- src/components/Navbar.tsx is not part of this model. It holds static links only.
- JSX markup, CSS classes, animations, focus handling and the "/" keyboard shortcut are left out. They have no logical content here.
- Unicode behaviour of `toLowerCase`, `trim` and `\w` is left out. Strings are ASCII, as described above.
- `RecipeService.IngredientsFor` and `RecipeService.NutritionFor` treat keys inherited from `Object.prototype` (for example `"constructor"`) as absent. In the code such a key would return the inherited member instead of the default.
- `SearchBar.Submit` takes the stored query as input and returns only what it passes on. So "submitting does not change the stored query" holds by construction and has no separate lemma.
- The ingredient `amount` is a real, not a double. It is carried in the record but no modelled code reads it; the list shows `original`.

=== FILE: ascii.dfy ===
/**
  The string primitives the front-end relies on, restricted to ASCII:
  `String.prototype.trim`, `toLowerCase`, `split(',')`, `includes`, the
  regular-expression classes `\w` and `\s`, and decimal rendering of
  non-negative integers inside template literals.
 */
module Ascii {

  /** ASCII whitespace: space, tab, line feed, vertical tab, form feed,
      carriage return. Both `trim` and `\s` treat exactly these as blanks. */
  predicate IsSpace(c: char) {
    c == ' ' || '\t' <= c <= '\r'
  }

  predicate IsUpper(c: char) { 'A' <= c <= 'Z' }

  predicate IsLower(c: char) { 'a' <= c <= 'z' }

  predicate IsDigit(c: char) { '0' <= c <= '9' }

  /** The regular-expression class `\w`. */
  predicate IsWordChar(c: char) {
    IsUpper(c) || IsLower(c) || IsDigit(c) || c == '_'
  }

  predicate AllSpace(s: string) {
    forall k :: 0 <= k < |s| ==> IsSpace(s[k])
  }

  // ---------------------------------------------------------------- case

  function LowerChar(c: char): (r: char)
    ensures !IsUpper(r)
    ensures IsUpper(c) ==> IsLower(r) && r as int - c as int == 32
    ensures !IsUpper(c) ==> r == c
  {
    if IsUpper(c) then (c as int + 32) as char else c
  }

  /** `toLowerCase` on ASCII text. */
  function ToLower(s: string): (r: string)
    ensures |r| == |s|
    ensures forall k :: 0 <= k < |r| ==> !IsUpper(r[k])
    ensures forall k :: 0 <= k < |s| ==>
      (IsUpper(s[k]) ==> r[k] as int == s[k] as int + 32) && (!IsUpper(s[k]) ==> r[k] == s[k])
  {
    seq(|s|, k requires 0 <= k < |s| => LowerChar(s[k]))
  }

  lemma ToLowerIdempotent(s: string)
    ensures ToLower(ToLower(s)) == ToLower(s)
  {
  }

  /** Lower-casing works character by character, so it distributes over
      concatenation. */
  lemma ToLowerAppend(a: string, b: string)
    ensures ToLower(a + b) == ToLower(a) + ToLower(b)
  {
  }

  /** A lower-case letter absent in both cases stays absent. */
  lemma LowerKeepsAbsent(s: string, c: char)
    requires IsLower(c)
    requires c !in s && (c as int - 32) as char !in s
    ensures c !in ToLower(s)
  {
    forall i | 0 <= i < |s|
      ensures ToLower(s)[i] != c
    {
      assert s[i] in s;
    }
  }

  // ---------------------------------------------------------------- trim

  /** Drops leading whitespace: the result is the suffix of `s` that starts
      at its first non-blank character. */
  function TrimStart(s: string): (r: string)
    ensures |r| <= |s| && r == s[|s| - |r|..]
    ensures forall k :: 0 <= k < |s| - |r| ==> IsSpace(s[k])
    ensures r == [] || !IsSpace(r[0])
  {
    if |s| > 0 && IsSpace(s[0]) then TrimStart(s[1..]) else s
  }

  /** Drops trailing whitespace: the result is the prefix of `s` that ends
      at its last non-blank character. */
  function TrimEnd(s: string): (r: string)
    ensures |r| <= |s| && r == s[..|r|]
    ensures forall k :: |r| <= k < |s| ==> IsSpace(s[k])
    ensures r == [] || !IsSpace(r[|r| - 1])
  {
    if |s| > 0 && IsSpace(s[|s| - 1]) then TrimEnd(s[..|s| - 1]) else s
  }

  predicate IsTrimmed(s: string) {
    s == [] || (!IsSpace(s[0]) && !IsSpace(s[|s| - 1]))
  }

  /** `String.prototype.trim`: blanks removed at both ends. It is empty
      exactly when `s` is blank. */
  function Trim(s: string): (r: string)
    ensures IsTrimmed(r)
    ensures r == [] <==> AllSpace(s)
  {
    TrimEndFirst(TrimStart(s));
    TrimBlank(s);
    TrimEnd(TrimStart(s))
  }

  /** `r` sits at offset `i` of `s` with only blanks around it. */
  ghost predicate TrimmedAt(s: string, r: string, i: int) {
    && 0 <= i <= |s| - |r|
    && r == s[i..i + |r|]
    && (forall k :: 0 <= k < i ==> IsSpace(s[k]))
    && (forall k :: i + |r| <= k < |s| ==> IsSpace(s[k]))
  }

  /** The trimmed text is a slice of the input with only blanks around it. */
  lemma TrimIsSlice(s: string) returns (i: nat)
    ensures TrimmedAt(s, Trim(s), i)
  {
    TrimPosition(s);
    i := |s| - |TrimStart(s)|;
  }

  lemma TrimEndFirst(a: string)
    requires a == [] || !IsSpace(a[0])
    ensures IsTrimmed(TrimEnd(a))
  {
    var r := TrimEnd(a);
    if r != [] {
      assert r[0] == a[0];
    }
  }

  lemma TrimBlank(s: string)
    ensures TrimEnd(TrimStart(s)) == [] <==> AllSpace(s)
  {
    var a := TrimStart(s);
    var i := |s| - |a|;
    if TrimEnd(a) == [] {
      forall k | 0 <= k < |s|
        ensures IsSpace(s[k])
      {
      }
    }
  }

  lemma TrimPosition(s: string)
    ensures TrimmedAt(s, TrimEnd(TrimStart(s)), |s| - |TrimStart(s)|)
  {
    var a := TrimStart(s);
    var r := TrimEnd(a);
    var i := |s| - |a|;
    assert a == s[i..];
    assert r == a[..|r|];
    forall k | i + |r| <= k < |s|
      ensures IsSpace(s[k])
    {
      assert s[k] == a[k - i];
    }
    assert a[..|r|] == s[i..i + |r|];
  }

  lemma TrimOfTrimmed(s: string)
    requires IsTrimmed(s)
    ensures Trim(s) == s
  {
  }

  /** Trimming twice is the same as trimming once. */
  lemma TrimIdempotent(s: string)
    ensures Trim(Trim(s)) == Trim(s)
  {
    TrimOfTrimmed(Trim(s));
  }

  /** Blanks added at either end are removed again: padding never changes
      the trimmed text. */
  lemma TrimPadding(p: string, a: string, q: string)
    requires AllSpace(p) && AllSpace(q)
    ensures Trim(p + a + q) == Trim(a)
  {
    assert p + a + q == p + (a + q);
    TrimStartBlankPrefix(p, a + q);
    TrimStartPadded(a, q);
  }

  /** Blanks appended after a string vanish once both ends are trimmed. */
  lemma TrimStartPadded(a: string, q: string)
    requires AllSpace(q)
    ensures TrimEnd(TrimStart(a + q)) == TrimEnd(TrimStart(a))
  {
    if AllSpace(a) {
      assert AllSpace(a + q) by {
        assert forall k :: 0 <= k < |a| ==> (a + q)[k] == a[k];
        assert forall k :: |a| <= k < |a + q| ==> (a + q)[k] == q[k - |a|];
      }
      TrimStartOfBlank(a + q);
      TrimStartOfBlank(a);
    } else {
      TrimStartAppend(a, q);
      TrimEndBlankSuffix(TrimStart(a), q);
    }
  }

  lemma TrimStartOfBlank(s: string)
    requires AllSpace(s)
    ensures TrimStart(s) == []
  {
  }

  lemma {:induction false} TrimStartBlankPrefix(p: string, x: string)
    requires AllSpace(p)
    ensures TrimStart(p + x) == TrimStart(x)
  {
    if |p| > 0 {
      assert (p + x)[1..] == p[1..] + x;
      TrimStartBlankPrefix(p[1..], x);
    } else {
      assert p + x == x;
    }
  }

  lemma {:induction false} TrimStartAppend(a: string, q: string)
    requires !AllSpace(a)
    ensures TrimStart(a + q) == TrimStart(a) + q
  {
    if IsSpace(a[0]) {
      assert (a + q)[1..] == a[1..] + q;
      TrimStartAppend(a[1..], q);
    }
  }

  lemma {:induction false} TrimEndBlankSuffix(x: string, q: string)
    requires AllSpace(q)
    ensures TrimEnd(x + q) == TrimEnd(x)
  {
    if |q| > 0 {
      var q' := q[..|q| - 1];
      assert (x + q)[..|x + q| - 1] == x + q';
      TrimEndBlankSuffix(x, q');
    } else {
      assert x + q == x;
    }
  }

  // ------------------------------------------------------------ contains

  predicate StartsWith(s: string, p: string) {
    |p| <= |s| && s[..|p|] == p
  }

  /** `s.includes(t)`: `t` occurs in `s` at some offset. */
  predicate Contains(s: string, t: string)
    decreases |s|
  {
    StartsWith(s, t) || (|s| > 0 && Contains(s[1..], t))
  }

  /** `t` occurs in `s` starting at offset `i`. */
  ghost predicate OccursAt(s: string, t: string, i: int) {
    0 <= i <= |s| - |t| && s[i..i + |t|] == t
  }

  /** `Contains` agrees with the positional definition of a substring. */
  lemma {:induction false} ContainsAt(s: string, t: string)
    ensures Contains(s, t) <==> exists i :: OccursAt(s, t, i)
  {
    if Contains(s, t) {
      if !StartsWith(s, t) {
        ContainsAt(s[1..], t);
        var i :| OccursAt(s[1..], t, i);
        assert OccursAt(s, t, i + 1);
      } else {
        assert OccursAt(s, t, 0);
      }
    }
    if exists i :: OccursAt(s, t, i) {
      var i :| OccursAt(s, t, i);
      if i > 0 {
        assert OccursAt(s[1..], t, i - 1);
        ContainsAt(s[1..], t);
      }
    }
  }

  /** Every character of an included string occurs in the including one. */
  lemma ContainsChars(s: string, t: string)
    requires Contains(s, t)
    ensures forall c :: c in t ==> c in s
  {
    ContainsAt(s, t);
    var i :| OccursAt(s, t, i);
    forall c | c in t
      ensures c in s
    {
      var k :| 0 <= k < |t| && t[k] == c;
      assert s[i + k] == c;
    }
  }

  lemma ContainsSelf(s: string)
    ensures Contains(s, s)
  {
    assert StartsWith(s, s);
  }

  lemma MissingCharNotContained(s: string, t: string, c: char)
    requires c in t && c !in s
    ensures !Contains(s, t)
  {
    if Contains(s, t) {
      ContainsChars(s, t);
    }
  }

  /** Every string includes the empty string. */
  lemma ContainsEmpty(s: string)
    ensures Contains(s, "")
  {
  }

  // --------------------------------------------------------------- split

  /** `s.split(sep)`: the pieces between occurrences of `sep`. There is
      always at least one piece, and none contains `sep`. */
  function Split(s: string, sep: char): (r: seq<string>)
    ensures |r| >= 1
    ensures forall k :: 0 <= k < |r| ==> sep !in r[k]
  {
    if |s| == 0 then [""]
    else
      var rest := Split(s[1..], sep);
      if s[0] == sep then [""] + rest
      else [[s[0]] + rest[0]] + rest[1..]
  }

  /** There is one more piece than there are separators. */
  lemma {:induction false} SplitCount(s: string, sep: char)
    ensures |Split(s, sep)| == multiset(s)[sep] + 1
  {
    if |s| > 0 {
      SplitCount(s[1..], sep);
      assert s == [s[0]] + s[1..];
    }
  }

  /** Lower-casing commutes with splitting on a separator that is not a
      letter: the pieces of the lower-cased text are the lower-cased pieces. */
  lemma {:induction false} SplitToLower(s: string, sep: char)
    requires !IsUpper(sep) && !IsLower(sep)
    ensures |Split(ToLower(s), sep)| == |Split(s, sep)|
    ensures forall k :: 0 <= k < |Split(s, sep)| ==>
      Split(ToLower(s), sep)[k] == ToLower(Split(s, sep)[k])
  {
    if |s| > 0 {
      var l := ToLower(s);
      assert l[1..] == ToLower(s[1..]);
      SplitToLower(s[1..], sep);
      var rest, lrest := Split(s[1..], sep), Split(l[1..], sep);
      var r, lr := Split(s, sep), Split(l, sep);
      assert l[0] == sep <==> s[0] == sep;
      if s[0] == sep {
        assert r == [""] + rest;
        assert lr == [""] + lrest;
        forall k | 0 <= k < |r|
          ensures lr[k] == ToLower(r[k])
        {
          if k > 0 {
            assert r[k] == rest[k - 1];
            assert lr[k] == lrest[k - 1];
          }
        }
      } else {
        assert r == [[s[0]] + rest[0]] + rest[1..];
        assert lr == [[l[0]] + lrest[0]] + lrest[1..];
        assert ToLower([s[0]] + rest[0]) == [l[0]] + lrest[0];
        forall k | 0 <= k < |r|
          ensures lr[k] == ToLower(r[k])
        {
          if k > 0 {
            assert r[k] == rest[k];
            assert lr[k] == lrest[k];
          }
        }
      }
    }
  }

  /** `pieces.join(sep)`. */
  function Join(pieces: seq<string>, sep: char): string
    requires |pieces| >= 1
  {
    if |pieces| == 1 then pieces[0]
    else pieces[0] + [sep] + Join(pieces[1..], sep)
  }

  lemma JoinConsFirst(c: char, pieces: seq<string>, sep: char)
    requires |pieces| >= 1
    ensures Join([[c] + pieces[0]] + pieces[1..], sep) == [c] + Join(pieces, sep)
  {
    var ps := [[c] + pieces[0]] + pieces[1..];
    if |pieces| > 1 {
      assert ps[1..] == pieces[1..];
    }
  }

  /** Joining the pieces with the separator gives back the input. */
  lemma {:induction false} JoinSplit(s: string, sep: char)
    ensures Join(Split(s, sep), sep) == s
  {
    if |s| > 0 {
      var rest := Split(s[1..], sep);
      JoinSplit(s[1..], sep);
      if s[0] == sep {
        assert ([""] + rest)[1..] == rest;
      } else {
        JoinConsFirst(s[0], rest, sep);
      }
      assert s == [s[0]] + s[1..];
    }
  }

  /** Splitting a join of separator-free pieces gives back the pieces. */
  lemma {:induction false} SplitJoin(pieces: seq<string>, sep: char)
    requires |pieces| >= 1
    requires forall k :: 0 <= k < |pieces| ==> sep !in pieces[k]
    ensures Split(Join(pieces, sep), sep) == pieces
  {
    if |pieces| == 1 {
      SplitFree(pieces[0], sep);
    } else {
      var rest := Join(pieces[1..], sep);
      assert sep !in pieces[0];
      SplitJoin(pieces[1..], sep);
      SplitPrefix(pieces[0], rest, sep);
      calc {
        Split(Join(pieces, sep), sep);
        Split(pieces[0] + [sep] + rest, sep);
        [pieces[0]] + Split(rest, sep);
        [pieces[0]] + pieces[1..];
        pieces;
      }
    }
  }

  lemma {:induction false} SplitFree(a: string, sep: char)
    requires sep !in a
    ensures Split(a, sep) == [a]
  {
    if |a| > 0 {
      SplitFree(a[1..], sep);
      assert a == [a[0]] + a[1..];
    }
  }

  lemma {:induction false} SplitPrefix(a: string, b: string, sep: char)
    requires sep !in a
    ensures Split(a + [sep] + b, sep) == [a] + Split(b, sep)
  {
    if |a| == 0 {
      assert a + [sep] + b == [sep] + b;
      assert ([sep] + b)[1..] == b;
    } else {
      assert (a + [sep] + b)[1..] == a[1..] + [sep] + b;
      SplitPrefix(a[1..], b, sep);
      assert a == [a[0]] + a[1..];
    }
  }

  // ------------------------------------------------------------- decimal

  function DigitChar(d: nat): (c: char)
    requires d < 10
    ensures IsDigit(c)
  {
    ('0' as int + d) as char
  }

  /** Decimal rendering of a non-negative integer, without leading zeros. */
  function NatToString(n: nat): (r: string)
    ensures |r| >= 1
    ensures forall k :: 0 <= k < |r| ==> IsDigit(r[k])
    ensures r[0] == '0' ==> n == 0 && |r| == 1
  {
    if n < 10 then [DigitChar(n)] else NatToString(n / 10) + [DigitChar(n % 10)]
  }

  /** Reads a string of decimal digits back as a number. */
  function DigitsValue(s: string): nat
    requires forall k :: 0 <= k < |s| ==> IsDigit(s[k])
  {
    if |s| == 0 then 0
    else
      assert IsDigit(s[|s| - 1]);
      DigitsValue(s[..|s| - 1]) * 10 + (s[|s| - 1] as int - '0' as int)
  }

  /** Rendering then reading gives the number back, so distinct numbers
      render differently. */
  lemma {:induction false} NatToStringRoundTrip(n: nat)
    ensures DigitsValue(NatToString(n)) == n
  {
    if n >= 10 {
      NatToStringRoundTrip(n / 10);
      var r := NatToString(n);
      assert r[..|r| - 1] == NatToString(n / 10);
    }
  }

  lemma NatToStringInjective(m: nat, n: nat)
    requires NatToString(m) == NatToString(n)
    ensures m == n
  {
    NatToStringRoundTrip(m);
    NatToStringRoundTrip(n);
  }
}

=== FILE: frame_service.dfy ===
/**
  The image-frame builder of src/services/aiStudioService.ts
  (`generateRecipeImageFrames`): it normalises a recipe title into a search
  term, reads recipe images from the first five hits of a recipe-search
  response, pads the list to five entries with seeded placeholder URLs, and
  falls back to five fixed URLs when anything goes wrong.

  The HTTP request itself is not modelled: the response it produced (or
  the failure) is an input.
 */
module FrameService {
  import opened Options
  import Seqs
  import Ascii

  /** Every frame list has exactly this many entries. */
  const FrameCount: nat := 5

  // ------------------------------------------------------ response shape

  /** `hit.recipe`, reduced to the one field the code reads. `None` stands
      for an absent or null `image`. */
  datatype HitRecipe = HitRecipe(image: Option<string>)

  /** One element of `hits`. Reading `.recipe` of a JSON `null` throws. */
  datatype Hit = NullHit | HitObject(recipe: Option<HitRecipe>)

  /** The parsed JSON body: `null` (reading `.hits` throws), or a value
      whose `hits` array may be missing. */
  datatype Body = NullBody | Value(hits: Option<seq<Hit>>)

  /** What the request produced: a network error, or a response with its
      `ok` flag and its body (`None` when it is not valid JSON). */
  datatype Fetched = NetworkError | Received(ok: bool, body: Option<Body>)

  // ---------------------------------------------------------- search term

  /** Characters `/[^\w\s]/gi` leaves in place. */
  predicate Kept(c: char) {
    Ascii.IsWordChar(c) || Ascii.IsSpace(c)
  }

  predicate IsTermChar(c: char) {
    Ascii.IsLower(c) || Ascii.IsDigit(c) || c == '_' || Ascii.IsSpace(c)
  }

  /** `recipeTitle.replace(/[^\w\s]/gi, '').toLowerCase()`. */
  function SearchTerm(title: string): (term: string)
    ensures |term| <= |title|
    ensures forall k :: 0 <= k < |term| ==> IsTermChar(term[k])
  {
    var kept := Seqs.Filter(title, Kept);
    assert forall k :: 0 <= k < |kept| ==> kept[k] in kept;
    Ascii.ToLower(kept)
  }

  lemma FilterKeepsAll(s: string)
    requires forall k :: 0 <= k < |s| ==> Kept(s[k])
    ensures Seqs.Filter(s, Kept) == s
  {
    var idx := Seqs.FilterPositions(s, Kept);
    assert |Seqs.Filter(s, Kept)| == |s| by {
      Seqs.FilterPartition(s, Kept, c => !Kept(c));
      Seqs.FilterNone(s, c => !Kept(c));
    }
    forall k | 0 <= k < |s|
      ensures Seqs.Filter(s, Kept)[k] == s[k]
    {
      AllPositions(idx, |s|, k);
    }
  }

  /** A strictly increasing list of `n` positions below `n` is 0, 1, ..., n-1. */
  lemma {:induction false} AllPositions(idx: seq<nat>, n: nat, k: nat)
    requires |idx| == n && k < n
    requires forall j :: 0 <= j < n ==> idx[j] < n
    requires forall i, j :: 0 <= i < j < n ==> idx[i] < idx[j]
    ensures idx[k] == k
  {
    forall j | 0 <= j < n
      ensures j <= idx[j]
    {
      AtLeastIndex(idx, n, j);
    }
    forall j | 0 <= j < n
      ensures idx[j] <= j
    {
      AtMostIndex(idx, n, j);
    }
  }

  lemma {:induction false} AtLeastIndex(idx: seq<nat>, n: nat, j: nat)
    requires |idx| == n && j < n
    requires forall i, l :: 0 <= i < l < n ==> idx[i] < idx[l]
    ensures j <= idx[j]
  {
    if j > 0 {
      AtLeastIndex(idx, n, j - 1);
    }
  }

  lemma {:induction false} AtMostIndex(idx: seq<nat>, n: nat, j: nat)
    requires |idx| == n && j < n
    requires forall i :: 0 <= i < n ==> idx[i] < n
    requires forall i, l :: 0 <= i < l < n ==> idx[i] < idx[l]
    ensures idx[j] <= j
    decreases n - j
  {
    if j < n - 1 {
      AtMostIndex(idx, n, j + 1);
    }
  }

  /** A title made only of word characters and blanks is merely lower-cased. */
  lemma SearchTermOfPlainTitle(title: string)
    requires forall k :: 0 <= k < |title| ==> Kept(title[k])
    ensures SearchTerm(title) == Ascii.ToLower(title)
  {
    FilterKeepsAll(title);
  }

  /** Normalising a search term again changes nothing. */
  lemma SearchTermIdempotent(title: string)
    ensures SearchTerm(SearchTerm(title)) == SearchTerm(title)
  {
    var term := SearchTerm(title);
    SearchTermOfPlainTitle(term);
    Ascii.ToLowerIdempotent(Seqs.Filter(title, Kept));
  }

  // ----------------------------------------------------------------- URLs

  /** The seeded placeholder for padding slot `i`. */
  function Placeholder(term: string, i: nat): (url: string)
    ensures |url| > 27 + |term| + 9
    ensures url[..27] == "https://picsum.photos/seed/" && url[27..27 + |term|] == term
    ensures url[|url| - 9..] == "/1280/720"
  {
    var site := "https://picsum.photos/seed/";
    var tail := "-frame-" + Ascii.NatToString(i) + "/1280/720";
    assert |site| == 27;
    assert (site + term + tail)[..27] == site;
    assert (site + term + tail)[27..27 + |term|] == term;
    site + term + tail
  }

  /** After the term comes `-frame-` and the slot number in decimal. */
  lemma PlaceholderStatesIndex(term: string, i: nat)
    ensures var url := Placeholder(term, i);
      var d := Ascii.NatToString(i);
      && |url| == 34 + |term| + |d| + 9
      && url[27 + |term|..34 + |term|] == "-frame-"
      && url[34 + |term|..34 + |term| + |d|] == d
      && Ascii.DigitsValue(d) == i
  {
    Ascii.NatToStringRoundTrip(i);
  }

  /** The `i`-th fixed fallback frame, used whatever the title. */
  function FallbackFrame(i: nat): (url: string)
    ensures |url| > 36 + 9
    ensures url[..36] == "https://picsum.photos/seed/fallback-"
    ensures url[|url| - 9..] == "/1280/720"
  {
    var site := "https://picsum.photos/seed/fallback-";
    assert |site| == 36;
    site + Ascii.NatToString(i) + "/1280/720"
  }

  /** Between the fixed prefix and suffix stand the digits of `i`. */
  lemma FallbackFrameStatesIndex(i: nat)
    ensures var url := FallbackFrame(i);
      var d := Ascii.NatToString(i);
      && |url| == 36 + |d| + 9
      && url[36..36 + |d|] == d
      && Ascii.DigitsValue(d) == i
  {
    Ascii.NatToStringRoundTrip(i);
  }

  function FallbackFrames(): (frames: seq<string>)
    ensures |frames| == FrameCount
  {
    seq(FrameCount, i requires 0 <= i < FrameCount => FallbackFrame(i))
  }

  /** Exactly the characters outside `[\w\s]` are deleted: the term is the
      lower-cased kept characters of the title, in title order. */
  lemma SearchTermPositions(title: string) returns (idx: seq<nat>)
    ensures |idx| == |SearchTerm(title)|
    ensures forall k, l :: 0 <= k < l < |idx| ==> idx[k] < idx[l]
    ensures forall k :: 0 <= k < |idx| ==>
      idx[k] < |title| && SearchTerm(title)[k] == Ascii.LowerChar(title[idx[k]])
    ensures forall i :: 0 <= i < |title| ==> (i in idx <==> Kept(title[i]))
  {
    idx := Seqs.FilterPositions(title, Kept);
  }

  /** Different padding slots get different URLs. */
  lemma PlaceholdersDistinct(term: string, i: nat, j: nat)
    requires i != j
    ensures Placeholder(term, i) != Placeholder(term, j)
  {
    if Placeholder(term, i) == Placeholder(term, j) {
      var a := "https://picsum.photos/seed/" + term + "-frame-";
      assert Placeholder(term, i) == a + Ascii.NatToString(i) + "/1280/720";
      assert Placeholder(term, j) == a + Ascii.NatToString(j) + "/1280/720";
      Seqs.MiddleCancels(a, Ascii.NatToString(i), Ascii.NatToString(j), "/1280/720");
      Ascii.NatToStringInjective(i, j);
    }
  }

  // --------------------------------------------------------------- frames

  /** `hit.recipe && hit.recipe.image` is truthy: a present, non-empty image. */
  predicate HasImage(h: Hit) {
    h.HitObject? && h.recipe.Some? && h.recipe.value.image.Some? && h.recipe.value.image.value != ""
  }

  function ImageOf(h: Hit): string
    requires HasImage(h)
  {
    h.recipe.value.image.value
  }

  /** The images pushed by the `forEach` over the considered hits. */
  function Collect(hits: seq<Hit>): (images: seq<string>)
    ensures |images| <= |hits|
    ensures forall k :: 0 <= k < |images| ==> images[k] != ""
  {
    var withImage := Seqs.Filter(hits, HasImage);
    assert forall k :: 0 <= k < |withImage| ==> withImage[k] in withImage;
    seq(|withImage|, k requires 0 <= k < |withImage| => ImageOf(withImage[k]))
  }

  /** A hit contributes iff it has an image, and contributed images keep the
      order of their hits. */
  lemma CollectPositions(hits: seq<Hit>) returns (idx: seq<nat>)
    ensures |idx| == |Collect(hits)|
    ensures forall k :: 0 <= k < |idx| ==>
      idx[k] < |hits| && HasImage(hits[idx[k]]) && Collect(hits)[k] == ImageOf(hits[idx[k]])
    ensures forall k, l :: 0 <= k < l < |idx| ==> idx[k] < idx[l]
    ensures forall i :: 0 <= i < |hits| ==> (i in idx <==> HasImage(hits[i]))
  {
    idx := Seqs.FilterPositions(hits, HasImage);
  }

  /** `data.hits.slice(0, 5)`, or nothing when `hits` is missing. */
  function Considered(hits: Option<seq<Hit>>): (r: seq<Hit>)
    ensures |r| <= FrameCount
    ensures hits.Some? ==> r <= hits.value
    ensures hits.None? ==> r == []
    ensures hits.Some? ==> |r| == if |hits.value| < FrameCount then |hits.value| else FrameCount
  {
    match hits
    case None => []
    case Some(hs) => if |hs| <= FrameCount then hs else hs[..FrameCount]
  }

  /** The collected images followed by placeholders 0, 1, ... up to five. */
  function Pad(term: string, images: seq<string>): (frames: seq<string>)
    requires |images| <= FrameCount
    ensures |frames| == FrameCount
    ensures frames[..|images|] == images
    ensures forall k :: |images| <= k < FrameCount ==> frames[k] == Placeholder(term, k - |images|)
  {
    images + seq(FrameCount - |images|, i requires 0 <= i < FrameCount - |images| => Placeholder(term, i))
  }

  /** Whether the request succeeded well enough for hits to be read: `None`
      when the fetch failed, the status was not ok, the body was not JSON,
      or it was `null`. */
  function HitsOf(fetched: Fetched): (r: Option<Option<seq<Hit>>>)
    ensures r.Some? <==> fetched.Received? && fetched.ok && fetched.body.Some? && fetched.body.value.Value?
    ensures r.Some? ==> r.value == fetched.body.value.hits
  {
    match fetched
    case NetworkError => None
    case Received(ok, body) =>
      if !ok then None
      else match body
        case None => None
        case Some(NullBody) => None
        case Some(Value(hits)) => Some(hits)
  }

  predicate HasNullHit(hits: seq<Hit>) {
    exists k :: 0 <= k < |hits| && hits[k].NullHit?
  }

  /** `generateRecipeImageFrames(recipeTitle)`, given what the request for
      the title's search term produced. */
  function GenerateRecipeImageFrames(title: string, fetched: Fetched): (frames: seq<string>)
    ensures |frames| == FrameCount
  {
    match HitsOf(fetched)
    case None => FallbackFrames()
    case Some(hits) =>
      var considered := Considered(hits);
      if HasNullHit(considered) then FallbackFrames()
      else Pad(SearchTerm(title), Collect(considered))
  }

  /** Any failure gives the five fixed fallback frames, whatever the title. */
  lemma FailureGivesFallback(title: string, fetched: Fetched)
    requires HitsOf(fetched).None?
    ensures GenerateRecipeImageFrames(title, fetched) == FallbackFrames()
    ensures forall i :: 0 <= i < FrameCount ==>
      GenerateRecipeImageFrames(title, fetched)[i] == FallbackFrame(i)
  {
  }

  /** On success, the images of the first five hits come first, in hit
      order, each from a hit that has one; placeholders seeded with the
      search term and numbered from 0 fill the rest. */
  lemma SuccessLayout(title: string, fetched: Fetched) returns (n: nat, idx: seq<nat>)
    requires HitsOf(fetched).Some?
    requires !HasNullHit(Considered(HitsOf(fetched).value))
    ensures var hits := Considered(HitsOf(fetched).value);
      var frames := GenerateRecipeImageFrames(title, fetched);
      && n <= FrameCount && |idx| == n
      && (forall k, l :: 0 <= k < l < n ==> idx[k] < idx[l])
      && (forall k :: 0 <= k < n ==>
            idx[k] < |hits| && HasImage(hits[idx[k]]) && frames[k] == ImageOf(hits[idx[k]]))
      && (forall i :: 0 <= i < |hits| ==> (i in idx <==> HasImage(hits[i])))
      && (forall k :: n <= k < FrameCount ==> frames[k] == Placeholder(SearchTerm(title), k - n))
  {
    var hits := Considered(HitsOf(fetched).value);
    idx := CollectPositions(hits);
    n := |Collect(hits)|;
    var frames := GenerateRecipeImageFrames(title, fetched);
    assert frames == Pad(SearchTerm(title), Collect(hits));
    forall k | 0 <= k < n
      ensures frames[k] == Collect(hits)[k]
    {
      assert frames[..n][k] == frames[k];
    }
  }

  /** No hits, or no `hits` field, gives placeholders 0 to 4. */
  lemma NoHitsAllPlaceholders(title: string, fetched: Fetched)
    requires HitsOf(fetched).Some?
    requires Considered(HitsOf(fetched).value) == []
    ensures forall i :: 0 <= i < FrameCount ==>
      GenerateRecipeImageFrames(title, fetched)[i] == Placeholder(SearchTerm(title), i)
  {
    assert Collect([]) == [];
  }

  /** A null entry among the first five hits makes the code throw, which
      lands in the fallback; one after the fifth is never read. */
  lemma NullHitFallsBack(title: string, fetched: Fetched)
    requires HitsOf(fetched).Some?
    requires HasNullHit(Considered(HitsOf(fetched).value))
    ensures GenerateRecipeImageFrames(title, fetched) == FallbackFrames()
  {
  }
}

=== FILE: home_page.dfy ===
/**
  The search page (src/pages/Home.tsx): it runs the ingredient search for
  a submitted query and shows a loader, a heading with the query, a count
  line, the result cards, or one of two empty-state panels.

  `handleSearch` is asynchronous: its start (flags and query set before
  the `await`) and its settling (results stored, or kept when the call
  threw) are separate events, so searches that overlap can be described.
 */
module HomePage {
  import opened Options
  import Ascii
  import Seqs
  import opened RecipeCard
  import RecipeService

  datatype HomeState = HomeState(results: seq<Recipe>, searching: bool, searched: bool, query: string)

  const Initial: HomeState := HomeState([], false, false, "")

  /** Start of the handler for submitted `query`, or the settling of one
      such call: `Returned` with what the search returned, `Threw` when it
      rejected. */
  datatype Event = Start(query: string) | Returned(results: seq<Recipe>) | Threw

  function Step(s: HomeState, e: Event): (t: HomeState)
    ensures e.Start? ==> t.searching && t.searched && t.query == e.query && t.results == s.results
    ensures !e.Start? ==> !t.searching && t.searched == s.searched && t.query == s.query
    ensures t.results == (if e.Returned? then e.results else s.results)
  {
    match e
    case Start(q) => s.(searching := true, query := q, searched := true)
    case Returned(rs) => s.(results := rs, searching := false)
    case Threw => s.(searching := false)
  }

  function Run(s: HomeState, events: seq<Event>): HomeState
    decreases |events|
  {
    if events == [] then s else Run(Step(s, events[0]), events[1..])
  }

  lemma RunCons(s: HomeState, e: Event, rest: seq<Event>)
    ensures Run(s, [e] + rest) == Run(Step(s, e), rest)
  {
    assert ([e] + rest)[1..] == rest;
  }

  /** A submission of `query` whose call returns `found`, with nothing
      overlapping it. */
  function Submission(s: HomeState, query: string, found: seq<Recipe>): (t: HomeState)
    ensures t == Run(s, [Start(query), Returned(found)])
    ensures !t.searching && t.searched && t.query == query && t.results == found
  {
    RunCons(s, Start(query), [Returned(found)]);
    RunCons(Step(s, Start(query)), Returned(found), []);
    Step(Step(s, Start(query)), Returned(found))
  }

  /** `handleSearch(query)` run to completion against the search service. */
  function HandleSearch(s: HomeState, query: string): (t: HomeState)
    ensures !t.searching && t.searched && t.query == query
    ensures t.results == RecipeService.SearchRecipesByIngredients(query)
  {
    Submission(s, query, RecipeService.SearchRecipesByIngredients(query))
  }

  /** Before the first submission nothing is shown and nothing runs;
      a search in flight implies one was submitted. */
  predicate Valid(s: HomeState) {
    (!s.searched ==> s.results == [] && !s.searching && s.query == "")
  }

  lemma {:induction false} RunValid(s: HomeState, events: seq<Event>)
    requires Valid(s)
    requires forall k :: 0 <= k < |events| ==> events[k].Returned? ==> exists j :: 0 <= j < k && events[j].Start?
    ensures Valid(Run(s, events))
    decreases |events|
  {
    if events != [] {
      var t := Step(s, events[0]);
      if events[0].Start? {
        SearchedStaysSearched(t, events[1..]);
      } else {
        forall k | 0 <= k < |events[1..]| && events[1..][k].Returned?
          ensures exists j :: 0 <= j < k && events[1..][j].Start?
        {
          var j :| 0 <= j < k + 1 && events[j].Start?;
          assert events[1..][j - 1] == events[j];
        }
        RunValid(t, events[1..]);
      }
    }
  }

  /** Every state reached from the initial one is valid, given that a call
      can only settle after some call has started. */
  lemma ReachableValid(events: seq<Event>)
    requires forall k :: 0 <= k < |events| ==> events[k].Returned? ==> exists j :: 0 <= j < k && events[j].Start?
    ensures Valid(Run(Initial, events))
  {
    RunValid(Initial, events);
  }

  /** After one submission the page stays in the searched state. */
  lemma {:induction false} SearchedStaysSearched(s: HomeState, events: seq<Event>)
    requires s.searched
    ensures Run(s, events).searched
    decreases |events|
  {
    if events != [] {
      SearchedStaysSearched(Step(s, events[0]), events[1..]);
    }
  }

  // ----------------------------------------------------------------- view

  datatype Body = Cards(cards: seq<Card>) | Prompt | NoMatches

  /** The loader replaces everything while a search runs; otherwise an
      optional heading, an optional count line and a body. */
  datatype HomeView = Loader | Page(heading: Option<string>, count: Option<string>, body: Body)

  function Quoted(query: string): string {
    "\"" + query + "\""
  }

  /** The heading names the query, in quotes, at its end; its first letter
      tells a hit ("Recipes with") from a miss ("No recipes found with"). */
  function HeadingText(query: string, found: nat): (h: string)
    ensures |h| == (if found > 0 then 13 else 22) + |query| + 2
    ensures h[|h| - |query| - 2..] == Quoted(query)
    ensures h[0] == if found > 0 then 'R' else 'N'
    ensures found > 0 ==> |h| >= 13 && h[..13] == "Recipes with "
    ensures found == 0 ==> |h| >= 22 && h[..22] == "No recipes found with "
  {
    if found > 0 then "Recipes with " + Quoted(query) else "No recipes found with " + Quoted(query)
  }

  function RecipeNoun(n: nat): (noun: string)
    ensures noun == "recipe" <==> n == 1
    ensures n != 1 ==> noun == "recipes"
  {
    if n == 1 then "recipe" else "recipes"
  }

  function CountText(n: nat): (c: string)
    ensures |c| > 6 && c[..6] == "Found "
  {
    "Found " + Ascii.NatToString(n) + " " + RecipeNoun(n) + " that match your ingredients"
  }

  function Render(s: HomeState): (v: HomeView)
    ensures v.Loader? <==> s.searching
    ensures v.Page? ==> (v.heading.Some? <==> s.searched)
    ensures v.Page? ==> (v.count.Some? <==> s.searched && |s.results| > 0)
    ensures v.Page? ==> (v.body.Cards? <==> |s.results| > 0)
    ensures v.Page? ==> (v.body.Prompt? <==> |s.results| == 0 && !s.searched)
    ensures v.Page? ==> (v.body.NoMatches? <==> |s.results| == 0 && s.searched)
    ensures v.Page? && v.body.Cards? ==>
      |v.body.cards| == |s.results| && forall k :: 0 <= k < |s.results| ==> v.body.cards[k] == RenderCard(s.results[k])
  {
    if s.searching then Loader
    else
      var n := |s.results|;
      Page(if s.searched then Some(HeadingText(s.query, n)) else None,
           if s.searched && n > 0 then Some(CountText(n)) else None,
           if n > 0 then Cards(seq(n, k requires 0 <= k < n => RenderCard(s.results[k])))
           else if !s.searched then Prompt
           else NoMatches)
  }

  /** The two headings can be told apart, and each names its query. */
  lemma HeadingNamesQuery(q1: string, n1: nat, q2: string, n2: nat)
    requires HeadingText(q1, n1) == HeadingText(q2, n2)
    ensures q1 == q2 && (n1 > 0 <==> n2 > 0)
  {
    if n1 > 0 {
      assert HeadingText(q1, n1) == "Recipes with \"" + q1 + "\"";
      assert HeadingText(q2, n2) == "Recipes with \"" + q2 + "\"";
      Seqs.MiddleCancels("Recipes with \"", q1, q2, "\"");
    } else {
      assert HeadingText(q1, n1) == "No recipes found with \"" + q1 + "\"";
      assert HeadingText(q2, n2) == "No recipes found with \"" + q2 + "\"";
      Seqs.MiddleCancels("No recipes found with \"", q1, q2, "\"");
    }
  }

  /** The count line begins "Found " followed by the digits of the count,
      which read back as the count. */
  lemma CountTextStatesCount(n: nat)
    ensures var d := Ascii.NatToString(n);
      && CountText(n)[..6] == "Found "
      && CountText(n)[6..6 + |d|] == d
      && Ascii.DigitsValue(d) == n
      && CountText(n)[6 + |d|] == ' '
      && CountText(n)[7 + |d|..7 + |d| + |RecipeNoun(n)|] == RecipeNoun(n)
      && CountText(n)[7 + |d| + |RecipeNoun(n)|..] == " that match your ingredients"
  {
    Ascii.NatToStringRoundTrip(n);
  }

  /** A completed submission shows what its call returned, under a heading
      quoting the query. */
  lemma SubmissionShowsResults(s: HomeState, query: string, found: seq<Recipe>)
    ensures var v := Render(Submission(s, query, found));
      && v.Page?
      && v.heading == Some(HeadingText(query, |found|))
      && (v.body.Cards? <==> |found| > 0)
      && (v.body.NoMatches? <==> |found| == 0)
      && (|found| > 0 ==> v.count == Some(CountText(|found|)))
  {
  }

  /** A query that finds exactly one recipe shows its card alone, with a
      singular count line. */
  lemma OneResultPage(s: HomeState, query: string, r: Recipe)
    requires RecipeService.SearchRecipesByIngredients(query) == [r]
    ensures Render(HandleSearch(s, query)) ==
      Page(Some(HeadingText(query, 1)), Some(CountText(1)), Cards([RenderCard(r)]))
  {
    var t := Submission(s, query, [r]);
    assert HandleSearch(s, query) == t;
    OneResultView(t, r);
  }

  lemma OneResultView(t: HomeState, r: Recipe)
    requires !t.searching && t.searched && t.results == [r]
    ensures Render(t) == Page(Some(HeadingText(t.query, 1)), Some(CountText(1)), Cards([RenderCard(r)]))
  {
    assert Render(t).body.cards == [RenderCard(r)];
  }

  /** Searching "chicken" from the start page shows exactly the one mock
      recipe that lists chicken. */
  lemma ChickenPage()
    ensures Render(HandleSearch(Initial, "chicken")) ==
      Page(Some(HeadingText("chicken", 1)), Some(CountText(1)), Cards([RenderCard(RecipeService.MockRecipes[0])]))
  {
    RecipeService.ChickenSearch();
    OneResultPage(Initial, "chicken", RecipeService.MockRecipes[0]);
  }

  /** A search that rejects keeps the previous results, now under the new
      query's heading. */
  lemma FailedSearchKeepsResults(s: HomeState, query: string)
    ensures Run(s, [Start(query), Threw]) == s.(query := query, searched := true, searching := false)
  {
    RunCons(s, Start(query), [Threw]);
    RunCons(Step(s, Start(query)), Threw, []);
  }

  /** Two overlapping submissions: when the first settles, the loader is
      gone and its results show under the second query's heading while the
      second call is still pending. */
  lemma OverlappingSearches(q1: string, q2: string, r1: seq<Recipe>)
    requires |r1| > 0
    ensures var t := Run(Initial, [Start(q1), Start(q2), Returned(r1)]);
      && Render(t).Page?
      && Render(t).heading == Some(HeadingText(q2, |r1|))
      && t.results == r1
  {
    var s1 := Step(Initial, Start(q1));
    RunCons(Initial, Start(q1), [Start(q2), Returned(r1)]);
    assert Run(s1, [Start(q2), Returned(r1)]) == Submission(s1, q2, r1);
  }
}

=== FILE: ingredients_list.dfy ===
/**
  The ingredient record and the two-column availability list on the detail
  page (src/components/IngredientsList.tsx).
 */
module IngredientsList {
  import Seqs

  /** `amount` is fractional in the data ("1/2 tsp"), hence `real`. */
  datatype Ingredient = Ingredient(
    id: int,
    name: string,
    amount: real,
    unit: string,
    original: string,
    isAvailable: bool)

  predicate Have(i: Ingredient) { i.isAvailable }

  predicate Lack(i: Ingredient) { !i.isAvailable }

  /** The ingredients the cook already has, in list order. */
  function Available(ings: seq<Ingredient>): (r: seq<Ingredient>)
    ensures forall x :: x in r <==> x in ings && x.isAvailable
  {
    Seqs.Filter(ings, Have)
  }

  /** The ingredients the cook still needs, in list order. */
  function Missing(ings: seq<Ingredient>): (r: seq<Ingredient>)
    ensures forall x :: x in r <==> x in ings && !x.isAvailable
  {
    Seqs.Filter(ings, Lack)
  }

  const NoMatchedText: string := "No matched ingredients found."
  const AllPresentText: string := "You have all the ingredients!"

  /** One column of the list: the items, or a notice when there are none. */
  datatype Column = Items(items: seq<Ingredient>) | Notice(text: string)

  datatype View = View(have: Column, need: Column)

  function Render(ings: seq<Ingredient>): (v: View)
    ensures v.have.Notice? <==> forall x :: x in ings ==> !x.isAvailable
    ensures v.need.Notice? <==> forall x :: x in ings ==> x.isAvailable
    ensures v.have.Notice? ==> v.have.text == NoMatchedText
    ensures v.need.Notice? ==> v.need.text == AllPresentText
    ensures v.have.Items? ==> v.have.items == Available(ings)
    ensures v.need.Items? ==> v.need.items == Missing(ings)
  {
    var have := Available(ings);
    var need := Missing(ings);
    assert |have| > 0 ==> have[0] in have;
    assert |need| > 0 ==> need[0] in need;
    View(if |have| > 0 then Items(have) else Notice(NoMatchedText),
         if |need| > 0 then Items(need) else Notice(AllPresentText))
  }

  /** Each ingredient position lands in exactly one column, both columns keep
      the input order, and together they hold every ingredient once. */
  lemma Partition(ings: seq<Ingredient>)
    ensures multiset(Available(ings)) + multiset(Missing(ings)) == multiset(ings)
    ensures |Available(ings)| + |Missing(ings)| == |ings|
    ensures Seqs.IsSubsequence(Available(ings), ings)
    ensures Seqs.IsSubsequence(Missing(ings), ings)
  {
    Seqs.FilterPartition(ings, Have, Lack);
    Seqs.FilterIsSubsequence(ings, Have);
    Seqs.FilterIsSubsequence(ings, Lack);
  }

  /** Position-wise: entry `i` is in the available column iff it is marked
      available, and in the missing column iff it is not. */
  lemma PartitionPositions(ings: seq<Ingredient>) returns (have: seq<nat>, need: seq<nat>)
    ensures Seqs.Embeds(have, Available(ings), ings)
    ensures Seqs.Embeds(need, Missing(ings), ings)
    ensures forall i :: 0 <= i < |ings| ==> (i in have <==> ings[i].isAvailable)
    ensures forall i :: 0 <= i < |ings| ==> (i in need <==> !ings[i].isAvailable)
  {
    have := Seqs.FilterPositions(ings, Have);
    need := Seqs.FilterPositions(ings, Lack);
  }
}

=== FILE: options.dfy ===
/** An optional value: JavaScript's `undefined` / `null` made explicit. */
module Options {

  datatype Option<+T> = None | Some(value: T) {

    function GetOr(default: T): T {
      match this
      case Some(v) => v
      case None => default
    }
  }
}

=== FILE: playback.dfy ===
/**
  The simulated video player of the detail page
  (src/components/RecipeVideo.tsx): a two-second "generating" phase, a
  play/pause toggle that only works once loading is over, a mute toggle,
  and a progress bar that advances half a percent every 100 ms while
  playing and rewinds to the start, paused, after passing 100 %.

  Timers are events: `FinishLoading` is the one-shot loading timer and
  `Tick` one firing of the progress interval.
 */
module Playback {
  import Seqs

  /** Progress is kept in half-percent steps, so 100 % is 200 steps. */
  const FullProgress: nat := 200

  datatype Player = Player(loading: bool, playing: bool, muted: bool, halfSteps: nat)

  /** The state on mount. */
  const Initial: Player := Player(true, false, false, 0)

  datatype Event = FinishLoading | Tick | TogglePlay | ToggleMute

  /** Progress as the percentage shown on the bar, as a fraction. */
  function ProgressPercent(p: Player): real {
    p.halfSteps as real / 2.0
  }

  /** One event. The interval only exists while playing and not loading;
      a tick at 100 % or more pauses and rewinds, any other tick adds
      half a percent. The play toggle is ignored while loading. */
  function Step(p: Player, e: Event): (q: Player)
    ensures q.muted == (if e == ToggleMute then !p.muted else p.muted)
    ensures e != ToggleMute ==> q.loading == (p.loading && e != FinishLoading)
    ensures e == ToggleMute ==> q.loading == p.loading
    ensures e != Tick ==> q.halfSteps == p.halfSteps
    ensures e == ToggleMute || e == FinishLoading ==> q.playing == p.playing
    ensures e == TogglePlay ==> q.playing == (p.playing != !p.loading)
  {
    match e
    case FinishLoading => p.(loading := false)
    case ToggleMute => p.(muted := !p.muted)
    case TogglePlay => if p.loading then p else p.(playing := !p.playing)
    case Tick =>
      if !(p.playing && !p.loading) then p
      else if p.halfSteps >= FullProgress then p.(playing := false, halfSteps := 0)
      else p.(halfSteps := p.halfSteps + 1)
  }

  function Run(p: Player, events: seq<Event>): Player
    decreases |events|
  {
    if events == [] then p else Run(Step(p, events[0]), events[1..])
  }

  /** What every reachable player state satisfies: progress never passes
      100 %, and nothing plays or advances before loading ends. */
  predicate Valid(p: Player) {
    p.halfSteps <= FullProgress && (p.loading ==> !p.playing && p.halfSteps == 0)
  }

  lemma InitialValid()
    ensures Valid(Initial)
  {
  }

  lemma StepValid(p: Player, e: Event)
    requires Valid(p)
    ensures Valid(Step(p, e))
  {
  }

  lemma {:induction false} RunValid(p: Player, events: seq<Event>)
    requires Valid(p)
    ensures Valid(Run(p, events))
    decreases |events|
  {
    if events != [] {
      StepValid(p, events[0]);
      RunValid(Step(p, events[0]), events[1..]);
    }
  }

  /** Every state reachable from mount is valid. */
  lemma ReachableValid(events: seq<Event>)
    ensures Valid(Run(Initial, events))
  {
    RunValid(Initial, events);
  }

  /** Loading ends once and never comes back. */
  lemma {:induction false} LoadedStaysLoaded(p: Player, events: seq<Event>)
    requires !p.loading
    ensures !Run(p, events).loading
    decreases |events|
  {
    if events != [] {
      LoadedStaysLoaded(Step(p, events[0]), events[1..]);
    }
  }

  /** Until the loading timer fires, no event can start playback. */
  lemma {:induction false} NoPlayWhileLoading(p: Player, events: seq<Event>)
    requires Valid(p) && p.loading
    requires forall k :: 0 <= k < |events| ==> events[k] != FinishLoading
    ensures Run(p, events).loading && !Run(p, events).playing && Run(p, events).halfSteps == 0
    decreases |events|
  {
    if events != [] {
      NoPlayWhileLoading(Step(p, events[0]), events[1..]);
    }
  }

  /** A tick below 100 % adds half a percent and keeps playing; ticks do
      nothing while paused or loading. */
  lemma TickEffect(p: Player)
    ensures p.playing && !p.loading && p.halfSteps < FullProgress ==>
      Step(p, Tick) == p.(halfSteps := p.halfSteps + 1)
    ensures !(p.playing && !p.loading) ==> Step(p, Tick) == p
  {
  }

  /** Muting is touched by the mute toggle alone, and undone by a second one. */
  lemma MuteTwice(p: Player)
    ensures Step(Step(p, ToggleMute), ToggleMute) == p
  {
  }

  /** Pausing keeps the position: play, pause returns to the same state. */
  lemma PauseKeepsPosition(p: Player)
    ensures Step(Step(p, TogglePlay), TogglePlay) == p
  {
  }

  function Ticks(n: nat): (r: seq<Event>)
    ensures |r| == n && forall k :: 0 <= k < n ==> r[k] == Tick
  {
    seq(n, _ => Tick)
  }

  /** While playing below 100 %, each tick advances by one half-step. */
  lemma {:induction false} TicksAdvance(p: Player, n: nat)
    requires !p.loading && p.playing && p.halfSteps + n <= FullProgress
    ensures Run(p, Ticks(n)) == p.(halfSteps := p.halfSteps + n)
    decreases n
  {
    if n > 0 {
      var q := Step(p, Tick);
      assert q == p.(halfSteps := p.halfSteps + 1);
      assert Ticks(n)[1..] == Ticks(n - 1);
      TicksAdvance(q, n - 1);
    }
  }

  /** Playback runs to the end: from position `h` it takes 200 - h ticks to
      reach 100 %, and one more pauses and rewinds to the start. */
  lemma PlayToEnd(p: Player)
    requires Valid(p) && !p.loading && p.playing
    ensures Run(p, Ticks(FullProgress - p.halfSteps)).halfSteps == FullProgress
    ensures Run(p, Ticks(FullProgress - p.halfSteps + 1)) == p.(playing := false, halfSteps := 0)
  {
    var n := FullProgress - p.halfSteps;
    TicksAdvance(p, n);
    RunAppend(p, Ticks(n), [Tick]);
    assert Ticks(n + 1) == Ticks(n) + [Tick];
  }

  lemma {:induction false} RunAppend(p: Player, a: seq<Event>, b: seq<Event>)
    ensures Run(p, a + b) == Run(Run(p, a), b)
    decreases |a|
  {
    if a == [] {
      assert a + b == b;
    } else {
      assert (a + b)[0] == a[0] && (a + b)[1..] == a[1..] + b;
      RunAppend(Step(p, a[0]), a[1..], b);
    }
  }

  /** `https://picsum.photos/seed/<recipeId>/1280/720`. */
  function VideoUrl(recipeId: string): (url: string)
    ensures |url| == 27 + |recipeId| + 9
    ensures url[..27] == "https://picsum.photos/seed/"
    ensures url[27..27 + |recipeId|] == recipeId
    ensures url[27 + |recipeId|..] == "/1280/720"
  {
    var url := "https://picsum.photos/seed/" + recipeId + "/1280/720";
    assert url[27..27 + |recipeId|] == recipeId;
    url
  }

  /** Different recipes show different pictures. */
  lemma VideoUrlInjective(a: string, b: string)
    requires VideoUrl(a) == VideoUrl(b)
    ensures a == b
  {
    Seqs.MiddleCancels("https://picsum.photos/seed/", a, b, "/1280/720");
  }
}

=== FILE: recipe_card.dfy ===
/**
  The recipe record and the summary card that links to its detail page
  (src/components/RecipeCard.tsx).
 */
module RecipeCard {
  import opened Options
  import Ascii

  datatype Recipe = Recipe(
    id: string,
    title: string,
    image: string,
    readyInMinutes: nat,
    servings: nat,
    aggregateLikes: nat,
    matchedIngredients: seq<string>,
    missingIngredients: seq<string>)

  /** At most this many matched-ingredient badges are shown. */
  const MatchedBadgeLimit: nat := 3

  /** At most this many missing-ingredient badges are shown. */
  const MissingBadgeLimit: nat := 2

  /** A row of ingredient badges with an optional "+K more" overflow count. */
  datatype BadgeRow = BadgeRow(badges: seq<string>, more: Option<nat>)

  /** The card as rendered: link target, header facts and the two badge
      sections, each absent when its list is empty. */
  datatype Card = Card(
    link: string,
    title: string,
    image: string,
    minutes: nat,
    servings: nat,
    likes: nat,
    matched: Option<BadgeRow>,
    missing: Option<BadgeRow>)

  /** The badge section for one ingredient list: nothing for an empty list,
      otherwise the first `limit` labels and, if any were cut, how many. */
  function BadgeSection(labels: seq<string>, limit: nat): (r: Option<BadgeRow>)
    ensures r.None? <==> |labels| == 0
    ensures r.Some? ==> r.value.badges <= labels
    ensures r.Some? ==> |r.value.badges| == if |labels| < limit then |labels| else limit
    ensures r.Some? ==> (r.value.more.Some? <==> |labels| > limit)
    ensures r.Some? ==> |r.value.badges| + r.value.more.GetOr(0) == |labels|
  {
    if |labels| == 0 then None
    else if |labels| > limit then Some(BadgeRow(labels[..limit], Some(|labels| - limit)))
    else Some(BadgeRow(labels, None))
  }

  /** The text of the overflow badge, `+K more`. */
  function MoreLabel(k: nat): (text: string)
    ensures |text| > 6 && text[0] == '+' && text[|text| - 5..] == " more"
  {
    "+" + Ascii.NatToString(k) + " more"
  }

  /** The digits after the `+` read back as the number of labels cut. */
  lemma MoreLabelStatesCount(k: nat)
    ensures var d := Ascii.NatToString(k);
      && MoreLabel(k)[1..1 + |d|] == d
      && Ascii.DigitsValue(d) == k
  {
    Ascii.NatToStringRoundTrip(k);
  }

  /** The badges a row shows, left to right: the labels kept, then the
      overflow badge when labels were cut. */
  function BadgeTexts(row: BadgeRow): (texts: seq<string>)
    ensures |texts| == |row.badges| + (if row.more.Some? then 1 else 0)
    ensures texts[..|row.badges|] == row.badges
    ensures row.more.Some? ==> texts[|row.badges|] == MoreLabel(row.more.value)
  {
    row.badges + if row.more.Some? then [MoreLabel(row.more.value)] else []
  }

  /** The route the card links to. */
  function LinkPath(id: string): (path: string)
    ensures |path| == |id| + 8 && path[..8] == "/recipe/" && path[8..] == id
  {
    "/recipe/" + id
  }

  /** Distinct recipes link to distinct pages. */
  lemma LinkPathInjective(a: string, b: string)
    requires LinkPath(a) == LinkPath(b)
    ensures a == b
  {
    assert a == LinkPath(a)[8..];
  }

  function RenderCard(r: Recipe): (c: Card)
    ensures c.link == LinkPath(r.id)
    ensures c.title == r.title && c.image == r.image
    ensures c.minutes == r.readyInMinutes && c.servings == r.servings && c.likes == r.aggregateLikes
    ensures c.matched == BadgeSection(r.matchedIngredients, MatchedBadgeLimit)
    ensures c.missing == BadgeSection(r.missingIngredients, MissingBadgeLimit)
  {
    Card(LinkPath(r.id), r.title, r.image, r.readyInMinutes, r.servings, r.aggregateLikes,
         BadgeSection(r.matchedIngredients, MatchedBadgeLimit),
         BadgeSection(r.missingIngredients, MissingBadgeLimit))
  }

  /** What the matched section of a card promises: it is present iff the
      list is non-empty, shows at most three labels from the front, and
      shows "+K more" exactly when labels were cut, with K the number cut. */
  lemma MatchedSection(r: Recipe)
    ensures var n := |r.matchedIngredients|;
      var m := RenderCard(r).matched;
      && (m.Some? <==> n > 0)
      && (m.Some? ==> m.value.badges == r.matchedIngredients[..if n < 3 then n else 3])
      && (m.Some? ==> (m.value.more == if n > 3 then Some(n - 3) else None))
  {
  }

  /** A card with more than three matched labels shows three of them and
      then `+K more`, K being the number left out. */
  lemma MatchedOverflowText(r: Recipe)
    requires |r.matchedIngredients| > MatchedBadgeLimit
    ensures var t := BadgeTexts(RenderCard(r).matched.value);
      && |t| == MatchedBadgeLimit + 1
      && t[..MatchedBadgeLimit] == r.matchedIngredients[..MatchedBadgeLimit]
      && t[MatchedBadgeLimit] == MoreLabel(|r.matchedIngredients| - MatchedBadgeLimit)
  {
  }

  /** The same for the missing section, with a limit of two. */
  lemma MissingSection(r: Recipe)
    ensures var n := |r.missingIngredients|;
      var m := RenderCard(r).missing;
      && (m.Some? <==> n > 0)
      && (m.Some? ==> m.value.badges == r.missingIngredients[..if n < 2 then n else 2])
      && (m.Some? ==> (m.value.more == if n > 2 then Some(n - 2) else None))
  {
  }
}

=== FILE: recipe_detail_page.dfy ===
/**
  The recipe page (src/pages/RecipeDetail.tsx): on mount, and whenever
  the route's id changes, it looks the recipe up and then shows a loader,
  a "Recipe not found" panel, or the recipe with its video, ingredient
  columns and rating widget.
 */
module RecipeDetailPage {
  import opened Options
  import opened RecipeCard
  import IngredientsList
  import RecipeService
  import Playback
  import RecipeRating

  datatype DetailState = DetailState(
    loading: bool,
    recipe: Option<Recipe>,
    ingredients: seq<IngredientsList.Ingredient>,
    nutrition: RecipeService.Nutrition)

  /** The state on mount, before the effect has run. */
  const Initial: DetailState := DetailState(true, None, [], RecipeService.NoNutrition)

  /** `if (!id) return;`: a missing id and the empty id are both falsy. */
  predicate HasId(id: Option<string>) {
    id.Some? && id.value != ""
  }

  /** Up to the `await`: without a truthy id the effect returns at once. */
  function Begin(s: DetailState, id: Option<string>): (t: DetailState)
    ensures !HasId(id) ==> t == s
    ensures HasId(id) ==> t.loading && t.recipe == s.recipe && t.ingredients == s.ingredients && t.nutrition == s.nutrition
  {
    if !HasId(id) then s else s.(loading := true)
  }

  /** After the `await`: the three fields are replaced only when a recipe
      came back; `None` stands for a rejected call. Loading ends either way. */
  function Settle(s: DetailState, outcome: Option<RecipeService.Details>): (t: DetailState)
    ensures !t.loading
    ensures outcome.Some? && outcome.value.recipe.Some? ==>
      t == DetailState(false, outcome.value.recipe, outcome.value.ingredients, outcome.value.nutrition)
    ensures !(outcome.Some? && outcome.value.recipe.Some?) ==> t == s.(loading := false)
  {
    match outcome
    case Some(d) =>
      if d.recipe.Some? then DetailState(false, d.recipe, d.ingredients, d.nutrition)
      else s.(loading := false)
    case None => s.(loading := false)
  }

  /** One run of the effect for route parameter `id` against the service. */
  function Fetch(s: DetailState, id: Option<string>): (t: DetailState)
    ensures !HasId(id) ==> t == s
    ensures HasId(id) ==> !t.loading
    ensures HasId(id) && RecipeService.GetRecipeById(id.value).recipe.None? ==> t == s.(loading := false)
    ensures HasId(id) && RecipeService.GetRecipeById(id.value).recipe.Some? ==>
      var d := RecipeService.GetRecipeById(id.value);
      t == DetailState(false, d.recipe, d.ingredients, d.nutrition)
  {
    if !HasId(id) then s else Settle(Begin(s, id), Some(RecipeService.GetRecipeById(id.value)))
  }

  /** The ingredient list and nutrition shown are those of the recipe shown,
      and both are empty before any recipe was found. */
  predicate Coherent(s: DetailState) {
    match s.recipe
    case None => s.ingredients == [] && s.nutrition == RecipeService.NoNutrition
    case Some(r) =>
      s.ingredients == RecipeService.IngredientsFor(r.id) && s.nutrition == RecipeService.NutritionFor(r.id)
  }

  lemma InitialCoherent()
    ensures Coherent(Initial)
  {
  }

  /** Any lookup keeps the page coherent, whether it finds a recipe or not. */
  lemma FetchCoherent(s: DetailState, id: Option<string>)
    requires Coherent(s)
    ensures Coherent(Fetch(s, id))
  {
    if id.Some? {
      var d := RecipeService.GetRecipeById(id.value);
      RecipeService.LookupFields(id.value);
      if d.recipe.Some? {
        assert d.recipe.value.id == id.value;
      }
    }
  }

  /** A rejected lookup changes nothing but the loading flag. */
  lemma ThrowKeepsState(s: DetailState, id: string)
    ensures Settle(Begin(s, Some(id)), None) == s.(loading := false)
  {
  }

  // ----------------------------------------------------------------- view

  /** What the recipe branch shows; the rating widget is mounted with a
      rating of 4.5 from 128 ratings. */
  datatype DetailView =
    | Loader
    | NotFound
    | Shown(
        title: string,
        minutes: nat,
        servings: nat,
        videoUrl: string,
        ingredients: IngredientsList.View,
        nutrition: RecipeService.Nutrition,
        rating: RecipeRating.RatingState,
        totalRatings: nat)

  const ShownRating: real := 4.5
  const ShownRatingCount: nat := 128

  function Render(s: DetailState): (v: DetailView)
    ensures v.Loader? <==> s.loading
    ensures v.NotFound? <==> !s.loading && s.recipe.None?
    ensures v.Shown? ==> v.title == s.recipe.value.title && v.videoUrl == Playback.VideoUrl(s.recipe.value.id)
    ensures v.Shown? ==> v.ingredients == IngredientsList.Render(s.ingredients) && v.nutrition == s.nutrition
    ensures v.Shown? ==> v.minutes == s.recipe.value.readyInMinutes && v.servings == s.recipe.value.servings
    ensures v.Shown? ==> v.rating == RecipeRating.Mount(Some(ShownRating)) && v.totalRatings == ShownRatingCount
  {
    if s.loading then Loader
    else if s.recipe.None? then NotFound
    else
      var r := s.recipe.value;
      Shown(r.title, r.readyInMinutes, r.servings, Playback.VideoUrl(r.id),
            IngredientsList.Render(s.ingredients), s.nutrition,
            RecipeRating.Mount(Some(ShownRating)), ShownRatingCount)
  }

  /** Whenever a recipe is shown, its rating widget fills four stars and
      its caption uses the plural. */
  lemma ShownRatingWidget(s: DetailState)
    requires Render(s).Shown?
    ensures RecipeRating.FilledCount(Render(s).rating) == 4
    ensures RecipeRating.RatingsNoun(Render(s).totalRatings) == "ratings"
  {
    RecipeRating.DetailPageRating();
  }

  /** A route without an id, or with the empty id, never leaves the loader. */
  lemma MissingIdLoadsForever(id: Option<string>)
    requires id == None || id == Some("")
    ensures Render(Fetch(Initial, id)) == Loader
  {
  }

  /** A known id shows that recipe, its ingredients and its picture. */
  lemma KnownIdShown(id: string)
    requires RecipeService.IsMockId(id)
    ensures var v := Render(Fetch(Initial, Some(id)));
      && v.Shown?
      && v.title == RecipeService.MockRecipes[RecipeService.MockIndex(id)].title
      && v.videoUrl == Playback.VideoUrl(id)
      && v.ingredients == IngredientsList.Render(RecipeService.IngredientsFor(id))
  {
    RecipeService.KnownIdRecipe(id);
    RecipeService.LookupFields(id);
  }

  /** An unknown id on a fresh page shows "Recipe not found"; the empty id
      is falsy and keeps the loader. */
  lemma UnknownIdNotFound(id: string)
    requires !RecipeService.IsMockId(id)
    ensures Render(Fetch(Initial, Some(id))) == if id == "" then Loader else NotFound
  {
    RecipeService.UnknownId(id);
  }

  /** An unknown id after a known one keeps the earlier recipe on screen:
      only loading changes. The empty id changes nothing at all. */
  lemma UnknownIdKeepsPrevious(s: DetailState, id: string)
    requires !RecipeService.IsMockId(id)
    ensures Fetch(s, Some(id)) == if id == "" then s else s.(loading := false)
  {
    RecipeService.UnknownId(id);
  }
}

=== FILE: recipe_rating.dfy ===
/**
  The five-star rating widget (src/components/RecipeRating.tsx): hovering
  over a star previews that many filled stars, clicking sets the rating
  and thanks the user, and the caption counts the ratings with the right
  plural.
 */
module RecipeRating {
  import opened Options

  const StarCount: nat := 5

  /** `rating` starts at `initialRating` (default 0) and is a whole star
      once clicked; `hover` is 0 when no star is under the pointer. */
  datatype RatingState = RatingState(rating: real, hover: nat, hasRated: bool)

  predicate IsStar(star: int) { 1 <= star <= StarCount }

  predicate Valid(s: RatingState) { s.hover <= StarCount }

  /** The state on mount; a missing `initialRating` is 0. */
  function Mount(initialRating: Option<real>): (s: RatingState)
    ensures Valid(s) && !s.hasRated && s.hover == 0
    ensures s.rating == initialRating.GetOr(0.0)
  {
    RatingState(initialRating.GetOr(0.0), 0, false)
  }

  datatype Event = Enter(star: nat) | Leave | Click(star: nat)

  /** The buttons are stars 1 to 5, so every event names one of them. */
  predicate OnButton(e: Event) { e.Leave? || IsStar(e.star) }

  /** One pointer event on star button `star`. A click also reports the
      new rating to the listener, when there is one. */
  function Handle(s: RatingState, e: Event, hasListener: bool): (r: (RatingState, Option<nat>))
    requires OnButton(e)
    ensures r.1.Some? <==> e.Click? && hasListener
    ensures r.1.Some? ==> r.1.value == e.star && r.0.rating == e.star as real
    ensures r.0.hasRated == (s.hasRated || e.Click?)
    ensures e.Click? ==> r.0.rating == e.star as real && r.0.hover == s.hover
    ensures !e.Click? ==> r.0.rating == s.rating
    ensures r.0.hover == (if e.Enter? then e.star else if e.Leave? then 0 else s.hover)
  {
    match e
    case Enter(star) => (s.(hover := star), None)
    case Leave => (s.(hover := 0), None)
    case Click(star) =>
      (s.(rating := star as real, hasRated := true), if hasListener then Some(star) else None)
  }

  lemma HandleValid(s: RatingState, e: Event, hasListener: bool)
    requires Valid(s) && OnButton(e)
    ensures Valid(Handle(s, e, hasListener).0)
  {
  }

  /** Whether star `star` is drawn filled: against the hovered star while
      one is hovered, otherwise against the rating. */
  predicate Filled(s: RatingState, star: nat) {
    if s.hover != 0 then star <= s.hover else star as real <= s.rating
  }

  /** The five stars, left to right. */
  function Stars(s: RatingState): (row: seq<bool>)
    ensures |row| == StarCount
  {
    seq(StarCount, i requires 0 <= i < StarCount => Filled(s, i + 1))
  }

  /** How many stars are filled, stated without reference to `Filled`:
      the hovered star, or the whole part of the rating clamped to 0..5. */
  function FilledCount(s: RatingState): (n: nat)
    ensures n <= StarCount
  {
    if s.hover != 0 then (if s.hover < StarCount then s.hover else StarCount)
    else if s.rating < 0.0 then 0
    else if s.rating.Floor >= StarCount then StarCount
    else s.rating.Floor
  }

  /** The filled stars are exactly the first `FilledCount` ones. */
  lemma StarsArePrefix(s: RatingState)
    ensures forall i :: 0 <= i < StarCount ==> (Stars(s)[i] <==> i < FilledCount(s))
  {
    forall i | 0 <= i < StarCount
      ensures Stars(s)[i] <==> i < FilledCount(s)
    {
      if s.hover == 0 && 0.0 <= s.rating {
        FloorBound(s.rating, i + 1);
      }
    }
  }

  lemma FloorBound(x: real, k: int)
    ensures k as real <= x <==> k <= x.Floor
  {
  }

  /** While star `h` is hovered exactly `h` stars are filled, whatever the
      rating; leaving fills by the rating again. */
  lemma HoverFills(s: RatingState, h: nat)
    requires IsStar(h)
    ensures FilledCount(Handle(s, Enter(h), false).0) == h
    ensures Handle(s, Leave, false).0.hover == 0
    ensures forall star :: Filled(Handle(s, Leave, false).0, star) <==> star as real <= s.rating
  {
  }

  /** After a click, with the pointer gone, exactly the clicked star and
      those before it are filled, and the thank-you note replaces the prompt. */
  lemma ClickThenLeave(s: RatingState, star: nat, hasListener: bool)
    requires IsStar(star)
    ensures var t := Handle(Handle(s, Click(star), hasListener).0, Leave, hasListener).0;
      && t.hasRated
      && FilledCount(t) == star
  {
  }

  /** Once rated, the widget stays rated. */
  lemma {:induction false} RatedStaysRated(s: RatingState, events: seq<Event>, hasListener: bool)
    requires s.hasRated
    requires forall k :: 0 <= k < |events| ==> OnButton(events[k])
    ensures Replay(s, events, hasListener).hasRated
    decreases |events|
  {
    if events != [] {
      RatedStaysRated(Handle(s, events[0], hasListener).0, events[1..], hasListener);
    }
  }

  function Replay(s: RatingState, events: seq<Event>, hasListener: bool): RatingState
    requires forall k :: 0 <= k < |events| ==> OnButton(events[k])
    decreases |events|
  {
    if events == [] then s
    else Replay(Handle(s, events[0], hasListener).0, events[1..], hasListener)
  }

  /** `Based on N rating(s)`: singular for exactly one. */
  function RatingsNoun(totalRatings: int): (noun: string)
    ensures noun == "rating" <==> totalRatings == 1
    ensures noun == "ratings" <==> totalRatings != 1
  {
    if totalRatings == 1 then "rating" else "ratings"
  }

  /** The detail page mounts the widget with 4.5 and 128 ratings: four
      full stars show, and the caption is plural. */
  lemma DetailPageRating()
    ensures FilledCount(Mount(Some(4.5))) == 4
    ensures Stars(Mount(Some(4.5))) == [true, true, true, true, false]
    ensures RatingsNoun(128) == "ratings"
  {
    StarsArePrefix(Mount(Some(4.5)));
  }
}

=== FILE: recipe_service.dfy ===
/**
  The in-memory recipe provider (src/services/recipeService.ts): ingredient
  search over the mock recipe table and lookup of a recipe's details by id.
  The simulated network delay is not modelled; both operations are pure.
 */
module RecipeService {
  import opened Options
  import Seqs
  import Ascii
  import opened RecipeCard
  import opened IngredientsList

  datatype Nutrition = Nutrition(calories: nat, protein: nat, fat: nat, carbs: nat)

  const NoNutrition: Nutrition := Nutrition(0, 0, 0, 0)

  /** What a lookup by id returns; `recipe` is `None` for an unknown id. */
  datatype Details = Details(recipe: Option<Recipe>, ingredients: seq<Ingredient>, nutrition: Nutrition)

  // ------------------------------------------------------------ mock data

  const MockRecipes: seq<Recipe> := [
    Recipe("1", "Creamy Garlic Parmesan Pasta with Grilled Chicken",
      "https://images.unsplash.com/photo-1473093295043-cdd812d0e601?q=80&w=2070",
      30, 4, 256, ["pasta", "chicken", "parmesan", "garlic"], ["heavy cream", "parsley"]),
    Recipe("2", "Avocado Toast with Poached Eggs and Tomatoes",
      "https://images.unsplash.com/photo-1603046891744-1f76eb10aec7?q=80&w=2487",
      15, 2, 187, ["bread", "avocado", "eggs"], ["cherry tomatoes", "microgreens"]),
    Recipe("3", "Vegetable Stir Fry with Tofu and Soy Sauce",
      "https://images.unsplash.com/photo-1512621776951-a57141f2eefd?q=80&w=2070",
      25, 3, 142, ["tofu", "bell peppers", "broccoli"], ["soy sauce", "sesame oil", "green onions"]),
    Recipe("4", "Chocolate Chip Cookies with Sea Salt",
      "https://images.unsplash.com/photo-1499636136210-6f4ee915583e?q=80&w=2487",
      45, 24, 312, ["flour", "sugar", "butter", "chocolate chips"], ["sea salt", "vanilla extract"]),
    Recipe("5", "Berry Smoothie Bowl with Granola",
      "https://images.unsplash.com/photo-1501443762994-82bd5dace89a?q=80&w=2070",
      10, 1, 165, ["berries", "banana", "yogurt"], ["granola", "honey", "chia seeds"]),
    Recipe("6", "Roasted Salmon with Lemon and Dill",
      "https://images.unsplash.com/photo-1519708227418-c8fd9a32b7a2?q=80&w=2070",
      35, 2, 201, ["salmon", "lemon", "olive oil"], ["dill", "garlic powder", "black pepper"])
  ]

  const PastaIngredients: seq<Ingredient> := [
    Ingredient(1, "pasta", 8.0, "oz", "8 oz pasta", true),
    Ingredient(2, "chicken", 2.0, "breasts", "2 chicken breasts, grilled and sliced", true),
    Ingredient(3, "parmesan", 1.0, "cup", "1 cup grated parmesan cheese", true),
    Ingredient(4, "garlic", 4.0, "cloves", "4 cloves garlic, minced", true),
    Ingredient(5, "heavy cream", 1.0, "cup", "1 cup heavy cream", false),
    Ingredient(6, "parsley", 2.0, "tbsp", "2 tbsp fresh parsley, chopped", false),
    Ingredient(7, "butter", 2.0, "tbsp", "2 tbsp butter", true),
    Ingredient(8, "salt", 1.0, "tsp", "1 tsp salt", true),
    Ingredient(9, "pepper", 0.5, "tsp", "1/2 tsp black pepper", true)
  ]

  const ToastIngredients: seq<Ingredient> := [
    Ingredient(1, "bread", 2.0, "slices", "2 slices sourdough bread, toasted", true),
    Ingredient(2, "avocado", 1.0, "", "1 ripe avocado, mashed", true),
    Ingredient(3, "eggs", 2.0, "", "2 large eggs, poached", true),
    Ingredient(4, "cherry tomatoes", 0.5, "cup", "1/2 cup cherry tomatoes, halved", false),
    Ingredient(5, "microgreens", 0.25, "cup", "1/4 cup microgreens", false),
    Ingredient(6, "lemon juice", 1.0, "tsp", "1 tsp fresh lemon juice", true),
    Ingredient(7, "salt", 0.25, "tsp", "1/4 tsp salt", true),
    Ingredient(8, "pepper", 0.25, "tsp", "1/4 tsp black pepper", true)
  ]

  const MockIngredients: map<string, seq<Ingredient>> := map["1" := PastaIngredients, "2" := ToastIngredients]

  const MockNutrition: map<string, Nutrition> := map[
    "1" := Nutrition(520, 30, 28, 42),
    "2" := Nutrition(350, 15, 20, 30),
    "3" := Nutrition(280, 18, 12, 25),
    "4" := Nutrition(180, 2, 9, 22),
    "5" := Nutrition(320, 10, 6, 60),
    "6" := Nutrition(380, 36, 22, 8)
  ]

  // --------------------------------------------------------------- search

  /** One term per comma-separated piece of the query, lower-cased and
      trimmed. The source lower-cases the whole query before splitting;
      `SearchTermsAsWritten` shows the order makes no difference. */
  function SearchTerms(query: string): (terms: seq<string>)
    ensures |terms| == |Ascii.Split(query, ',')|
    ensures forall k :: 0 <= k < |terms| ==> Ascii.IsTrimmed(terms[k])
  {
    TermsOf(Ascii.Split(query, ','))
  }

  /** Each piece lower-cased and trimmed. */
  function TermsOf(pieces: seq<string>): (terms: seq<string>)
    ensures |terms| == |pieces|
    ensures forall k :: 0 <= k < |terms| ==> Ascii.IsTrimmed(terms[k])
  {
    seq(|pieces|, k requires 0 <= k < |pieces| => Ascii.Trim(Ascii.ToLower(pieces[k])))
  }

  /** `ingredients.toLowerCase().split(',').map(term => term.trim())`
      yields exactly `SearchTerms`. */
  lemma SearchTermsAsWritten(query: string)
    ensures var pieces := Ascii.Split(Ascii.ToLower(query), ',');
      && |pieces| == |SearchTerms(query)|
      && forall k :: 0 <= k < |pieces| ==> Ascii.Trim(pieces[k]) == SearchTerms(query)[k]
  {
    Ascii.SplitToLower(query, ',');
  }

  /** Some term occurs in the lower-cased `tag` (inner `some`). */
  predicate LabelMatches(tag: string, terms: seq<string>) {
    |terms| > 0 && (Ascii.Contains(Ascii.ToLower(tag), terms[0]) || LabelMatches(tag, terms[1..]))
  }

  /** Some tag matches some term (outer `some`). */
  predicate AnyLabelMatches(labels: seq<string>, terms: seq<string>) {
    |labels| > 0 && (LabelMatches(labels[0], terms) || AnyLabelMatches(labels[1..], terms))
  }

  predicate RecipeMatches(terms: seq<string>, r: Recipe) {
    AnyLabelMatches(r.matchedIngredients, terms)
  }

  /** The matching rule stated directly: a matched-ingredient tag whose
      lower-cased text includes some term. */
  ghost predicate Matches(r: Recipe, terms: seq<string>) {
    exists k, j :: 0 <= k < |r.matchedIngredients| && 0 <= j < |terms|
      && Ascii.Contains(Ascii.ToLower(r.matchedIngredients[k]), terms[j])
  }

  /** The table entries matching the query, in table order. */
  function SearchIn(table: seq<Recipe>, query: string): (found: seq<Recipe>)
    ensures |found| <= |table|
    ensures forall r :: r in found <==> r in table && RecipeMatches(SearchTerms(query), r)
  {
    Seqs.Filter(table, (r: Recipe) => RecipeMatches(SearchTerms(query), r))
  }

  /** `searchRecipesByIngredients`. */
  function SearchRecipesByIngredients(query: string): (found: seq<Recipe>)
    ensures forall r :: r in found <==> r in MockRecipes && RecipeMatches(SearchTerms(query), r)
  {
    SearchIn(MockRecipes, query)
  }

  lemma {:induction false} LabelMatchesIff(tag: string, terms: seq<string>)
    ensures LabelMatches(tag, terms) <==>
      exists j :: 0 <= j < |terms| && Ascii.Contains(Ascii.ToLower(tag), terms[j])
  {
    if |terms| > 0 {
      LabelMatchesIff(tag, terms[1..]);
      if Ascii.Contains(Ascii.ToLower(tag), terms[0]) {
        assert 0 < |terms|;
      }
      if exists j :: 0 <= j < |terms| && Ascii.Contains(Ascii.ToLower(tag), terms[j]) {
        var j :| 0 <= j < |terms| && Ascii.Contains(Ascii.ToLower(tag), terms[j]);
        if j > 0 {
          assert terms[1..][j - 1] == terms[j];
        }
      }
    }
  }

  lemma {:induction false} AnyLabelMatchesIff(labels: seq<string>, terms: seq<string>)
    ensures AnyLabelMatches(labels, terms) <==>
      exists k :: 0 <= k < |labels| && LabelMatches(labels[k], terms)
  {
    if |labels| > 0 {
      AnyLabelMatchesIff(labels[1..], terms);
      if exists k :: 0 <= k < |labels| && LabelMatches(labels[k], terms) {
        var k :| 0 <= k < |labels| && LabelMatches(labels[k], terms);
        if k > 0 {
          assert labels[1..][k - 1] == labels[k];
        }
      }
    }
  }

  /** The nested `some` of the source decides exactly `Matches`. */
  lemma RecipeMatchesIff(r: Recipe, terms: seq<string>)
    ensures RecipeMatches(terms, r) <==> Matches(r, terms)
  {
    AnyLabelMatchesIff(r.matchedIngredients, terms);
    forall k | 0 <= k < |r.matchedIngredients| {
      LabelMatchesIff(r.matchedIngredients[k], terms);
    }
  }

  /** Soundness and completeness: a recipe is returned iff it is in the
      table and one of its labels includes one of the query's terms. */
  lemma SearchExact(table: seq<Recipe>, query: string)
    ensures forall r :: r in SearchIn(table, query) <==> r in table && Matches(r, SearchTerms(query))
  {
    forall r {
      RecipeMatchesIff(r, SearchTerms(query));
    }
  }

  /** The result keeps the table's order and adds or repeats nothing. */
  lemma SearchIsSubsequence(table: seq<Recipe>, query: string) returns (idx: seq<nat>)
    ensures Seqs.Embeds(idx, SearchIn(table, query), table)
    ensures forall i :: 0 <= i < |table| ==>
      (i in idx <==> Matches(table[i], SearchTerms(query)))
  {
    var p := (r: Recipe) => RecipeMatches(SearchTerms(query), r);
    idx := Seqs.FilterPositions(table, p);
    forall i | 0 <= i < |table| {
      RecipeMatchesIff(table[i], SearchTerms(query));
    }
  }

  /** An empty term (query "" or "chicken,") is included in every tag, so
      every recipe with at least one matched ingredient is returned. */
  lemma EmptyTermMatchesAll(table: seq<Recipe>, query: string)
    requires "" in SearchTerms(query)
    ensures forall r :: r in SearchIn(table, query) <==> r in table && |r.matchedIngredients| > 0
  {
    var terms := SearchTerms(query);
    var j :| 0 <= j < |terms| && terms[j] == "";
    SearchExact(table, query);
    forall r | r in table && |r.matchedIngredients| > 0
      ensures Matches(r, terms)
    {
      Ascii.ContainsEmpty(Ascii.ToLower(r.matchedIngredients[0]));
    }
  }

  /** Letter case in the query does not matter. */
  lemma SearchIgnoresCase(query: string)
    ensures SearchTerms(Ascii.ToLower(query)) == SearchTerms(query)
  {
    Ascii.SplitToLower(query, ',');
    var pieces := Ascii.Split(query, ',');
    forall k | 0 <= k < |pieces|
      ensures SearchTerms(Ascii.ToLower(query))[k] == SearchTerms(query)[k]
    {
      Ascii.ToLowerIdempotent(pieces[k]);
    }
  }

  /** Blanks around a comma-separated piece do not change its term. */
  lemma SearchIgnoresPadding(query: string, k: nat, pad1: string, pad2: string)
    requires k < |Ascii.Split(query, ',')|
    requires Ascii.AllSpace(pad1) && Ascii.AllSpace(pad2)
    ensures Ascii.Trim(Ascii.ToLower(pad1 + Ascii.Split(query, ',')[k] + pad2)) == SearchTerms(query)[k]
  {
    var piece := Ascii.Split(query, ',')[k];
    Ascii.ToLowerAppend(pad1, piece);
    Ascii.ToLowerAppend(pad1 + piece, pad2);
    Ascii.TrimPadding(Ascii.ToLower(pad1), Ascii.ToLower(piece), Ascii.ToLower(pad2));
  }

  /** A query that is a single lower-case, blank-free, comma-free word is
      its own only term. */
  lemma SingleTerm(q: string)
    requires ',' !in q && Ascii.IsTrimmed(q) && Ascii.ToLower(q) == q
    ensures SearchTerms(q) == [q]
  {
    Ascii.SplitFree(q, ',');
    Ascii.TrimOfTrimmed(q);
    assert |SearchTerms(q)| == 1;
  }

  /** A trailing comma adds an empty term. */
  lemma TrailingComma(q: string)
    requires ',' !in q && Ascii.IsTrimmed(q) && Ascii.ToLower(q) == q
    ensures |SearchTerms(q + ",")| == 2
    ensures SearchTerms(q + ",")[0] == q
    ensures SearchTerms(q + ",")[1] == ""
  {
    SplitTrailingComma(q);
    Ascii.TrimOfTrimmed(q);
    TrimLowerEmpty();
  }

  lemma SplitTrailingComma(q: string)
    requires ',' !in q
    ensures Ascii.Split(q + ",", ',') == [q, ""]
  {
    assert q + "," == q + [','] + "";
    Ascii.SplitPrefix(q, "", ',');
  }

  lemma TrimLowerEmpty()
    ensures Ascii.Trim(Ascii.ToLower("")) == ""
  {
    assert Ascii.AllSpace(Ascii.ToLower(""));
  }

  /** The empty query is one empty term. */
  lemma EmptyQueryTerm()
    ensures SearchTerms("") == [""]
  {
    SingleTerm("");
  }

  /** "chicken," yields the term "chicken" and an empty term. */
  lemma TrailingCommaTerm()
    ensures SearchTerms("chicken,")[0] == "chicken"
    ensures "" in SearchTerms("chicken,")
  {
    TrailingComma("chicken");
    assert "chicken" + "," == "chicken,";
  }

  lemma ChickenTerms()
    ensures SearchTerms("chicken") == ["chicken"]
  {
    SingleTerm("chicken");
  }

  /** A recipe none of whose labels has a letter k cannot match "chicken". */
  lemma NoChicken(r: Recipe)
    requires forall k :: 0 <= k < |r.matchedIngredients| ==>
      'k' !in r.matchedIngredients[k] && 'K' !in r.matchedIngredients[k]
    ensures !RecipeMatches(["chicken"], r)
  {
    RecipeMatchesIff(r, ["chicken"]);
    forall k | 0 <= k < |r.matchedIngredients|
      ensures !Ascii.Contains(Ascii.ToLower(r.matchedIngredients[k]), "chicken")
    {
      Ascii.LowerKeepsAbsent(r.matchedIngredients[k], 'k');
      Ascii.MissingCharNotContained(Ascii.ToLower(r.matchedIngredients[k]), "chicken", 'k');
    }
  }

  /** A recipe with a label that is exactly the lower-case term matches it. */
  lemma LabelIsTerm(r: Recipe, k: nat, term: string)
    requires k < |r.matchedIngredients| && r.matchedIngredients[k] == term
    requires Ascii.ToLower(term) == term
    ensures RecipeMatches([term], r)
  {
    Ascii.ContainsSelf(term);
    RecipeMatchesIff(r, [term]);
    assert Ascii.Contains(Ascii.ToLower(r.matchedIngredients[k]), [term][0]);
  }

  /** A search whose query matches the first table entry and no other
      returns that entry alone. */
  lemma SearchOnlyFirst(table: seq<Recipe>, query: string)
    requires |table| > 0 && RecipeMatches(SearchTerms(query), table[0])
    requires forall i :: 1 <= i < |table| ==> !RecipeMatches(SearchTerms(query), table[i])
    ensures SearchIn(table, query) == [table[0]]
  {
    Seqs.FilterOnlyFirst(table, (r: Recipe) => RecipeMatches(SearchTerms(query), r));
  }

  /** Recipes '2' to '6' have no label with a letter k, so "chicken" misses
      each of them. */
  lemma ChickenMisses(i: nat)
    requires 1 <= i < |MockRecipes|
    ensures !RecipeMatches(["chicken"], MockRecipes[i])
  {
    if i == 1 {
      ChickenMisses2();
    } else if i == 2 {
      ChickenMisses3();
    } else if i == 3 {
      ChickenMisses4();
    } else if i == 4 {
      ChickenMisses5();
    } else {
      ChickenMisses6();
    }
  }

  // One lemma per recipe keeps each proof small enough to verify reliably.
  lemma ChickenMisses2()
    ensures !RecipeMatches(["chicken"], MockRecipes[1])
  {
    NoChicken(MockRecipes[1]);
  }

  lemma ChickenMisses3()
    ensures !RecipeMatches(["chicken"], MockRecipes[2])
  {
    NoChicken(MockRecipes[2]);
  }

  lemma ChickenMisses4()
    ensures !RecipeMatches(["chicken"], MockRecipes[3])
  {
    NoChicken(MockRecipes[3]);
  }

  lemma ChickenMisses5()
    ensures !RecipeMatches(["chicken"], MockRecipes[4])
  {
    NoChicken(MockRecipes[4]);
  }

  lemma ChickenMisses6()
    ensures !RecipeMatches(["chicken"], MockRecipes[5])
  {
    NoChicken(MockRecipes[5]);
  }

  lemma ChickenMatchesFirst()
    ensures RecipeMatches(["chicken"], MockRecipes[0])
  {
    LabelIsTerm(MockRecipes[0], 1, "chicken");
  }

  lemma ChickenMissesRest()
    ensures forall i :: 1 <= i < |MockRecipes| ==> !RecipeMatches(["chicken"], MockRecipes[i])
  {
    forall i | 1 <= i < |MockRecipes|
      ensures !RecipeMatches(["chicken"], MockRecipes[i])
    {
      ChickenMisses(i);
    }
  }

  /** On the mock data, "chicken" finds only the grilled-chicken pasta. */
  lemma ChickenSearch()
    ensures SearchRecipesByIngredients("chicken") == [MockRecipes[0]]
  {
    ChickenTerms();
    ChickenMatchesFirst();
    ChickenMissesRest();
    SearchOnlyFirst(MockRecipes, "chicken");
  }

  /** In particular the berry smoothie bowl (recipe '5') is not found. */
  lemma ChickenExcludesBerryBowl()
    ensures MockRecipes[0].id == "1" && MockRecipes[4].id == "5"
    ensures MockRecipes[4] !in SearchRecipesByIngredients("chicken")
  {
    ChickenSearch();
    assert MockRecipes[4] != MockRecipes[0];
  }

  // --------------------------------------------------------------- lookup

  /** `Array.prototype.find` by id: the first entry with that id, if any. */
  function FindById(table: seq<Recipe>, id: string): (r: Option<Recipe>)
    ensures r.None? <==> forall k :: 0 <= k < |table| ==> table[k].id != id
    ensures r.Some? ==> r.value.id == id
    ensures r.Some? ==>
      exists k :: 0 <= k < |table| && table[k] == r.value && forall j :: 0 <= j < k ==> table[j].id != id
  {
    if |table| == 0 then None
    else if table[0].id == id then Some(table[0])
    else
      var r := FindById(table[1..], id);
      assert forall k :: 1 <= k < |table| ==> table[k] == table[1..][k - 1];
      r
  }

  /** `getRecipeById`: the recipe, its ingredient list and its nutrition
      facts, each falling back to an empty default when the id is unknown. */
  function GetRecipeById(id: string): (d: Details)
    ensures d.recipe.Some? ==> d.recipe.value.id == id && d.recipe.value in MockRecipes
    ensures id !in MockIngredients ==> d.ingredients == []
    ensures id !in MockNutrition ==> d.nutrition == NoNutrition
  {
    Details(FindById(MockRecipes, id), IngredientsFor(id), NutritionFor(id))
  }

  /** `mockIngredientsList[id] || []`. */
  function IngredientsFor(id: string): seq<Ingredient> {
    if id in MockIngredients then MockIngredients[id] else []
  }

  /** `mockNutrition[id] || {0, 0, 0, 0}`. */
  function NutritionFor(id: string): Nutrition {
    if id in MockNutrition then MockNutrition[id] else NoNutrition
  }

  predicate IsMockId(id: string) {
    id in {"1", "2", "3", "4", "5", "6"}
  }

  /** An unknown id is not an error: no recipe, no ingredients, zero nutrition. */
  lemma UnknownId(id: string)
    requires !IsMockId(id)
    ensures GetRecipeById(id) == Details(None, [], NoNutrition)
  {
  }

  /** The entry at `i` is the first with its id, so `find` returns it. */
  lemma FindFirst(table: seq<Recipe>, i: nat)
    requires i < |table|
    requires forall j :: 0 <= j < i ==> table[j].id != table[i].id
    ensures FindById(table, table[i].id) == Some(table[i])
  {
    var r := FindById(table, table[i].id);
    var k :| 0 <= k < |table| && table[k] == r.value
      && forall j :: 0 <= j < k ==> table[j].id != table[i].id;
    assert !(k < i) && !(i < k);
  }

  /** The mock table's position of each known id. */
  function MockIndex(id: string): (i: nat)
    requires IsMockId(id)
    ensures i < |MockRecipes| && MockRecipes[i].id == id
    ensures forall j :: 0 <= j < i ==> MockRecipes[j].id != id
  {
    if id == "1" then 0 else if id == "2" then 1 else if id == "3" then 2
    else if id == "4" then 3 else if id == "5" then 4 else 5
  }

  /** A known id returns the recipe with that id, and it is the table's
      entry for that id. */
  lemma KnownIdRecipe(id: string)
    requires IsMockId(id)
    ensures GetRecipeById(id).recipe == Some(MockRecipes[MockIndex(id)])
    ensures GetRecipeById(id).recipe.value.id == id
  {
    FindFirst(MockRecipes, MockIndex(id));
  }

  /** A known id returns its own, non-zero nutrition facts. */
  lemma KnownIdNutrition(id: string)
    requires IsMockId(id)
    ensures GetRecipeById(id).nutrition == MockNutrition[id] != NoNutrition
  {
  }

  /** Only recipes '1' and '2' have an ingredient list, so ids '3' to '6'
      come back with a recipe but no ingredients. */
  lemma KnownIdIngredients(id: string)
    requires IsMockId(id)
    ensures GetRecipeById(id).ingredients != [] <==> id == "1" || id == "2"
  {
    LookupFields(id);
    if id == "1" {
      assert |PastaIngredients| == 9;
    } else if id == "2" {
      assert |ToastIngredients| == 8;
    } else {
      NoIngredientList(id);
    }
  }

  lemma LookupFields(id: string)
    ensures GetRecipeById(id).ingredients == IngredientsFor(id)
  {
  }

  lemma NoIngredientList(id: string)
    requires id != "1" && id != "2"
    ensures IngredientsFor(id) == []
  {
  }
}

=== FILE: search_bar.dfy ===
/**
  The ingredient search box (src/components/SearchBar.tsx): submitting
  the form hands the trimmed query to the page, unless it is blank.
 */
module SearchBar {
  import opened Options
  import Ascii

  /** What a submit passes to `onSearch`: `None` when nothing is passed. */
  function Submit(query: string): (passed: Option<string>)
    ensures passed.None? <==> Ascii.AllSpace(query)
    ensures passed.Some? ==> passed.value != [] && Ascii.IsTrimmed(passed.value)
  {
    var trimmed := Ascii.Trim(query);
    if trimmed != [] then Some(trimmed) else None
  }

  /** What is passed is the query with only blanks removed from its ends. */
  lemma SubmitIsSlice(query: string) returns (i: nat)
    requires Submit(query).Some?
    ensures Ascii.TrimmedAt(query, Submit(query).value, i)
  {
    i := Ascii.TrimIsSlice(query);
  }

  /** A query the bar has passed on is passed on unchanged if submitted again. */
  lemma ResubmitUnchanged(query: string)
    requires Submit(query).Some?
    ensures Submit(Submit(query).value) == Submit(query)
  {
    Ascii.TrimIdempotent(query);
  }

  /** Blanks around the query do not change what is passed. */
  lemma PaddingIgnored(before: string, query: string, after: string)
    requires Ascii.AllSpace(before) && Ascii.AllSpace(after)
    ensures Submit(before + query + after) == Submit(query)
  {
    Ascii.TrimPadding(before, query, after);
  }
}

=== FILE: seqs.dfy ===
/**
  Order-preserving selection over sequences, the shape shared by
  `Array.prototype.filter` calls throughout the front-end.
 */
module Seqs {

  /** `idx` lists, in strictly increasing order, positions of `s` whose
      elements spell out `r`. */
  ghost predicate Embeds<T>(idx: seq<nat>, r: seq<T>, s: seq<T>) {
    && |idx| == |r|
    && (forall k :: 0 <= k < |idx| ==> idx[k] < |s| && r[k] == s[idx[k]])
    && (forall k, l :: 0 <= k < l < |idx| ==> idx[k] < idx[l])
  }

  /** `r` is obtained from `s` by deleting elements, keeping the order. */
  ghost predicate IsSubsequence<T>(r: seq<T>, s: seq<T>) {
    exists idx :: Embeds(idx, r, s)
  }

  /** Keeps the elements satisfying `p`, in their original order. */
  function Filter<T(!new)>(s: seq<T>, p: T -> bool): (r: seq<T>)
    ensures |r| <= |s|
    ensures forall x :: x in r <==> x in s && p(x)
  {
    if |s| == 0 then []
    else (if p(s[0]) then [s[0]] else []) + Filter(s[1..], p)
  }

  /** The kept elements sit at exactly the positions of `s` where `p` holds,
      in increasing order: nothing is added, duplicated or reordered. */
  lemma {:induction false} FilterPositions<T(!new)>(s: seq<T>, p: T -> bool) returns (idx: seq<nat>)
    ensures Embeds(idx, Filter(s, p), s)
    ensures forall i :: 0 <= i < |s| ==> (i in idx <==> p(s[i]))
  {
    if |s| == 0 {
      idx := [];
    } else {
      var tail := FilterPositions(s[1..], p);
      var shifted := Shift(tail, s);
      if p(s[0]) {
        idx := [0] + shifted;
        assert Filter(s, p) == [s[0]] + Filter(s[1..], p);
        forall i | 1 <= i < |s|
          ensures i in idx <==> i in shifted
        {
        }
      } else {
        idx := shifted;
        assert Filter(s, p) == Filter(s[1..], p);
      }
    }
  }

  /** Moves an embedding into `s[1..]` to the same elements of `s`. */
  lemma Shift<T>(tail: seq<nat>, s: seq<T>) returns (shifted: seq<nat>)
    requires |s| > 0
    ensures forall r :: Embeds(tail, r, s[1..]) ==> Embeds(shifted, r, s)
    ensures forall r :: Embeds(tail, r, s[1..]) ==> Embeds([0] + shifted, [s[0]] + r, s)
    ensures 0 !in shifted
    ensures forall i :: 1 <= i < |s| ==> (i in shifted <==> (i - 1) in tail)
  {
    shifted := seq(|tail|, k requires 0 <= k < |tail| => tail[k] + 1);
    forall i | 1 <= i < |s|
      ensures i in shifted <==> (i - 1) in tail
    {
      if i in shifted {
        var k :| 0 <= k < |shifted| && shifted[k] == i;
        assert tail[k] == i - 1;
      }
      if (i - 1) in tail {
        var k :| 0 <= k < |tail| && tail[k] == i - 1;
        assert shifted[k] == i;
      }
    }
    forall r | Embeds(tail, r, s[1..])
      ensures Embeds([0] + shifted, [s[0]] + r, s)
    {
      var idx, r' := [0] + shifted, [s[0]] + r;
      forall k | 0 <= k < |idx|
        ensures idx[k] < |s| && r'[k] == s[idx[k]]
      {
        if k > 0 {
          assert idx[k] == tail[k - 1] + 1;
          assert r'[k] == r[k - 1];
        }
      }
    }
  }

  /** Corollary of `FilterPositions`. */
  lemma FilterIsSubsequence<T(!new)>(s: seq<T>, p: T -> bool)
    ensures IsSubsequence(Filter(s, p), s)
  {
    var idx := FilterPositions(s, p);
  }

  /** When only the first element qualifies, it is all that is kept. */
  lemma FilterOnlyFirst<T(!new)>(s: seq<T>, p: T -> bool)
    requires |s| > 0 && p(s[0])
    requires forall i :: 1 <= i < |s| ==> !p(s[i])
    ensures Filter(s, p) == [s[0]]
  {
    FilterNone(s[1..], p);
  }

  /** When nothing qualifies, nothing is kept. */
  lemma {:induction false} FilterNone<T(!new)>(s: seq<T>, p: T -> bool)
    requires forall i :: 0 <= i < |s| ==> !p(s[i])
    ensures Filter(s, p) == []
  {
    if |s| > 0 {
      FilterNone(s[1..], p);
    }
  }

  /** Filtering by `p` and by its complement `q` splits `s` into two parts
      that together hold every element exactly as often as `s` does. */
  lemma {:induction false} FilterPartition<T(!new)>(s: seq<T>, p: T -> bool, q: T -> bool)
    requires forall x :: q(x) <==> !p(x)
    ensures multiset(Filter(s, p)) + multiset(Filter(s, q)) == multiset(s)
    ensures |Filter(s, p)| + |Filter(s, q)| == |s|
  {
    if |s| > 0 {
      FilterPartition(s[1..], p, q);
      assert s == [s[0]] + s[1..];
    }
  }

  /** Equal sequences sharing a prefix and a suffix agree in the middle. */
  lemma MiddleCancels<T>(a: seq<T>, x: seq<T>, y: seq<T>, b: seq<T>)
    requires a + x + b == a + y + b
    ensures x == y
  {
    assert |x| == |y|;
    assert x == (a + x + b)[|a|..|a| + |x|];
  }
}
